=== FILE: README.md ===
# Weather agent over the Model Context Protocol, in Dafny

The repository is a small Go weather agent. A tool server exposes one
tool, `get_weather`, which answers from a fixed table of three cities. It
also exposes one prompt, `compare_weather`, which builds a comparison
request for two locations. A client connects to the server, offers its
tools to a chat model, and runs the tool-calling loop: it calls the
model, and while the model proposes a tool call it records the intent,
decodes the arguments, calls the tool, appends the tool's text and asks
the model again.

There are two clients.

- The current client (`weather_app/internal/client`) keeps one history
  for the whole session. It dispatches `exit`, `/prompts` and
  `/prompt <name> <args...>`. It caps every model request at 1000 tokens.
  Model, decoding and tool errors end only the current turn.
- The older client (`weather_app/client`) seeds its history with a
  system turn. Because of a `:=` inside its input loop, every user turn
  starts again from that seed. It decodes tool arguments into a map value,
  which `json.Unmarshal` always refuses. Every error ends it.

A minimal example server (`basic_mcp_example`) has one `subtract` tool on
Go `int`s.

The model has these modules:

| module | file | models |
|---|---|---|
| `GoValues` | `go_values.dfy` | Go outcomes (value, error, panic) and the wrapped sentinel error. `strings.ToLower`, `strings.EqualFold` and `strings.HasPrefix`. `%d` with its read-back. 64-bit `int` wrap-around. |
| `Protocol` | `protocol.dfy` | Protocol and chat-model records. The collaborators: the tool session, `shlex.Split` and `json` as function-valued fields. The history invariants. What a client session returns, and what can fail at startup. |
| `Descriptors` | `descriptors.dfy` | The two ways the clients turn listed tools into model tool descriptors. |
| `Prompts` | `prompts.dfy` | The current client's `/prompt` command. |
| `ToolLoop` | `tool_loop.dfy` | The tool-calling loop both clients run, parametrised by the argument decoder and the token cap. The model is a script of replies, and every request is recorded. |
| `Client` | `client.dfy` | The current client's input dispatch and session. |
| `LegacyClient` | `legacy_client.dfy` | The older client. |
| `GoQuote` | `quoting.dfy` | `%q` on strings, with a reader that undoes it. |
| `WeatherServer` | `weather_server.dfy` | The mock lookup, the tool handler, the comparison text and the prompt handler. |
| `SubtractTool` | `subtract.dfy` | The example server's `Subtract` handler. |
| `Scenarios` | `scenarios.dfy` | End-to-end consequences across modules. |

Go behaviour the programs rely on is written out explicitly:

- A panic (nil map write, nil pointer dereference, index out of range) is
  an outcome of its own, never a precondition.
- Errors that wrap `ErrShouldContinue` ("err not harmful") are marked
  continuable.
- `int` arithmetic wraps modulo 2^64.

## Model

| member | source | states |
|---|---|---|
| GoValues.PlainError | weather_app/client/client.go:82-85 | An error returned as is is not continuable and keeps its text. |
| GoValues.WrapShouldContinue | weather_app/internal/client/client.go:20 | An error made with `%w` around `ErrShouldContinue` is continuable, and its text ends with the sentinel's text. |
| GoValues.LowerRune | weather_app/internal/client/client.go:169 | Lower-casing shifts A-Z down to a-z and leaves every other rune alone, except the two non-ASCII runes that lower to ASCII letters. |
| GoValues.ToLower | weather_app/internal/client/client.go:169 | Lower-casing keeps the length and maps rune by rune. |
| GoValues.HasPrefix | weather_app/internal/client/client.go:183 | A string has a prefix exactly when it is that prefix followed by something. |
| GoValues.EqualFold | weather_app/internal/weather_mcp_server/mcp.go:109 | Equal strings match. Matching strings have the same length. Strings of the same length that differ only in the letter case of ASCII letters match. Between ASCII strings nothing else matches. |
| GoValues.EqualFoldIsEquivalence | weather_app/internal/weather_mcp_server/mcp.go:109 | Case-insensitive comparison is reflexive, symmetric and transitive. |
| GoValues.NatToDecimal | weather_app/internal/weather_mcp_server/mcp.go:120 | `%d` prints a non-empty string of digits with no leading zero. |
| GoValues.FormatInt | weather_app/internal/weather_mcp_server/mcp.go:120 | `%d` of an integer is non-empty. It starts with a minus sign exactly when the integer is negative, and is otherwise all digits. |
| GoValues.FormatIntRoundTrip | weather_app/internal/weather_mcp_server/mcp.go:120 | `%d` loses nothing: every integer, negative ones included, reads back as itself. |
| GoValues.DecimalRoundTrip | weather_app/internal/weather_mcp_server/mcp.go:120 | The digits of a natural number read back as that number. |
| GoValues.Wrap | basic_mcp_example/main.go:17 | Wrap-around gives the value congruent to the exact result modulo 2^64, and the exact result itself when that fits. |
| GoValues.WrapUnique | basic_mcp_example/main.go:17 | Only one `int` is congruent to a given integer modulo 2^64. |
| Protocol.IntentMessage | weather_app/internal/client/client.go:211-221 | The recorded intent is an assistant turn holding one tool call of type "function", with the proposal's id, name and arguments. |
| Protocol.TextMessage | weather_app/internal/client/client.go:195 | A text turn has the given role and one text part holding the text. It counts as an answer exactly when its role is the assistant's. |
| Protocol.ToolResponseMessage | weather_app/internal/client/client.go:249-258 | The tool turn for a call answers the intent recorded for the same call, and carries the tool's text. |
| Protocol.RoleCountAppend | weather_app/internal/client/client.go:195 | Counting turns by role adds up over concatenated histories. |
| Protocol.UserTextsAppend | weather_app/internal/client/client.go:195 | The user texts of concatenated histories are concatenated in order. |
| Protocol.CorrelatedAppend | weather_app/internal/client/client.go:249-258 | Joining two correlated histories keeps them correlated unless the second starts with an orphan tool turn. |
| Descriptors.DefaultedSchema | weather_app/internal/client/client.go:129-132 | A missing input schema becomes the empty object schema, and a present one is kept. |
| Descriptors.ConvertTools | weather_app/internal/client/client.go:127-142 | The current client offers one "function" descriptor per listed tool, in order. Name and description are copied, and every descriptor has a schema. |
| Descriptors.CopyTools | weather_app/client/client.go:42-51 | The older client offers one descriptor per tool, with the schema copied as listed, missing ones included. |
| Descriptors.ConvertIdempotent | weather_app/internal/client/client.go:127-142 | Converting the converted descriptors again changes nothing. |
| Descriptors.CopyRoundTrip | weather_app/client/client.go:42-51 | The older copy loses nothing: reading the descriptors back gives the listing. |
| Descriptors.ConvertAppend | weather_app/internal/client/client.go:127-142 | Conversion distributes over concatenation of listings, so it keeps their order. |
| Descriptors.ClientsAgreeIffSchemasPresent | weather_app/internal/client/client.go:127-142 | The two clients offer the same descriptors if and only if every listed tool has a schema. |
| Prompts.FindPrompt | weather_app/internal/client/client.go:46-52 | Gives the position of the first listed prompt with the name, or none if no prompt has it. |
| Prompts.PositionalArgs | weather_app/internal/client/client.go:39-40 | The tokens are the command, then the prompt name (the second token), then exactly the values, in order. |
| Prompts.BindIntoNilMap | weather_app/internal/client/client.go:62-66 | Binding into the never-made map panics exactly when the prompt declares an argument. Otherwise it yields the nil map. |
| Prompts.HandlePrompts | weather_app/internal/client/client.go:27-83 | The command fails with an error that does not wrap the sentinel exactly when the line does not split, or when a line of two or more tokens meets a failed prompt listing. Every other error wraps it. |
| Prompts.TooFewTokensRefused | weather_app/internal/client/client.go:29-37 | A line of fewer than two tokens is refused with the continuable "not a valid prompt" error before any listing, whatever the server would answer. |
| Prompts.ValidationCases | weather_app/internal/client/client.go:34-66 | A split line with listed prompts is refused with a continuable error when it has fewer than two tokens, names no listed prompt, or gives too few values. Past these checks, a prompt with declared arguments panics. Surplus values are accepted. |
| Prompts.LoadedOnlyWithoutArguments | weather_app/internal/client/client.go:58-82 | A command that succeeds names a listed prompt with no declared arguments, and that prompt was fetched with an empty argument map. |
| Prompts.DeclaredArgumentsPanic | weather_app/internal/client/client.go:58-66 | Naming the first matching prompt that has declared arguments, with enough values, always panics with the nil-map write. |
| Prompts.ArgumentlessPromptOutcomes | weather_app/internal/client/client.go:68-82 | For the first listed prompt with the name and no declared arguments: a failed fetch and a failed marshal are continuable errors that carry the cause's text. A fetched prompt with no messages panics on the index. Otherwise the command yields the marshalled content of the first message. |
| ToolLoop.TextOfAppend | weather_app/internal/client/client.go:241-246 | The text of a tool result is the in-order concatenation of its text items, so it distributes over concatenation. |
| ToolLoop.TextOfSingle | weather_app/internal/client/client.go:242-245 | A non-text item adds nothing, and a text item adds its text. |
| ToolLoop.TextOf | weather_app/internal/client/client.go:241-246 | A tool result with no text item gives the empty text. |
| ToolLoop.ToolStep | weather_app/internal/client/client.go:208-260 | Acting on a proposal first records the intent. Then comes either the answering tool turn, after which the model is called again, or an end on a decoding or tool error. The tool is invoked exactly when decoding succeeded. |
| ToolLoop.Step | weather_app/internal/client/client.go:198-266 | One model reply extends the history by at most two turns. A model error or a reply without choices adds nothing. A tool proposal adds the intent, and the tool turn when the loop continues. An answer adds one assistant turn holding the first choice's text, and ends the turn. |
| ToolLoop.StepKeepsCorrelation | weather_app/internal/client/client.go:211-258 | One step keeps every tool turn directly after the intent it answers. |
| ToolLoop.Loop | weather_app/internal/client/client.go:197-267 | The loop only extends the history and makes exactly one request per model reply it consumes. A turn that ends on a decoding or tool error leaves the unanswered intent as the last turn. |
| ToolLoop.LoopConsumesInOrder | weather_app/internal/client/client.go:197-198 | The loop consumes model replies in order, one per request, and leaves the rest of the script untouched. |
| ToolLoop.StepCounts | weather_app/internal/client/client.go:205-266 | A step adds a tool turn exactly when it continues, and never a user turn. |
| ToolLoop.LoopKeepsCorrelation | weather_app/internal/client/client.go:197-267 | A whole turn keeps every tool turn directly after its intent, with the same id and name. |
| ToolLoop.LoopCounts | weather_app/internal/client/client.go:197-267 | A turn adds no user turn and invokes the tool once per tool turn it adds, plus the failed call. It asks the model once more than it invokes tools, unless it ends on a tool error or runs out of model replies. |
| ToolLoop.LoopRequestsSeeHistory | weather_app/internal/client/client.go:198 | Every request of a turn shows the whole history as it stood, with the same tools and token cap. The first request shows exactly the starting history. |
| ToolLoop.LoopAnswersLast | weather_app/internal/client/client.go:263-266 | A turn appends an answer if and only if it ends answered, and then only as its last turn. |
| ToolLoop.OnlyFirstToolCallActedOn | weather_app/internal/client/client.go:205-208 | Only the first tool call of the first choice matters: other choices, other calls and the choice's text change nothing. |
| ToolLoop.ToolRoundTrip | weather_app/internal/client/client.go:211-260 | A call that decodes and succeeds appends the intent and a tool turn answering it with the result's text, invokes the tool with the decoded arguments, and continues. |
| Client.Dispatch | weather_app/internal/client/client.go:169-192 | A line quits exactly when it is `exit` in any letter case. A line that is sent is sent as typed. |
| Client.DispatchCases | weather_app/internal/client/client.go:169-192 | The full case split of dispatch. `/prompts` is sent on unless listing fails. A `/prompt` command is skipped on an error and crashes on a panic. Everything else is sent. |
| Client.HandleLine | weather_app/internal/client/client.go:163-267 | A line only extends the history. Only `exit` returns nil. No line makes the client return an error. A line that is not sent changes nothing. |
| Client.Converse | weather_app/internal/client/client.go:163-269 | The session only extends the history and never returns an error. It returns nil only at end of input or on an `exit` line. |
| Client.ConverseStopsAtOnce | weather_app/internal/client/client.go:163-172 | Empty input returns nil having read nothing. An `exit` first line returns nil after that one line, before any request, with the history unchanged. |
| Client.StartClient | weather_app/internal/client/client.go:109-150 | The client returns an error if and only if connecting, listing tools or creating the model fails, and then before any request. |
| Client.StartedClient | weather_app/internal/client/client.go:127-198 | Once started, every request shows a prefix of the final history and offers the converted descriptors with the 1000-token cap. The user turns are exactly the lines that passed dispatch. The history starts empty: the first request shows only the first sent line. |
| Client.LineUserTexts | weather_app/internal/client/client.go:174-195 | A sent line adds exactly one user turn, the line as typed. Any other line adds none. |
| Client.LineKeepsCorrelation | weather_app/internal/client/client.go:195-267 | One line keeps the history correlated. |
| Client.LineRequestsSeeHistory | weather_app/internal/client/client.go:195-198 | Every request made for a line shows the history as it stood, with the same tools and the 1000-token cap. |
| Client.UserTurnsAreSentLines | weather_app/internal/client/client.go:163-195 | The user turns of the final history are exactly the lines that passed dispatch, in the order typed. |
| Client.SessionKeepsCorrelation | weather_app/internal/client/client.go:163-268 | The whole session keeps every tool turn directly after the intent it answers. |
| Client.RequestsSeeWholeHistory | weather_app/internal/client/client.go:152-198 | History accumulates across lines: every request shows a prefix of the final history that extends the starting one. |
| Client.FirstRequestShowsFirstSentLine | weather_app/internal/client/client.go:163-198 | The first request of a session shows the starting history and the first line that passed dispatch, and nothing else. |
| Client.ErrorsEndOnlyTheTurn | weather_app/internal/client/client.go:195-239 | When the first model reply for a sent line is a model error, or proposes a call whose arguments fail to decode or whose tool fails, only that line's turn ends. The client does not stop, the history keeps the line and the unanswered intent, and the next model reply is left for the next line. |
| Client.LineOutcome | weather_app/internal/client/client.go:163-266 | A line leaves the model replies it did not consume, in order. A skipped line goes on. A sent line lets the client read the next line exactly when its turn ends answered or on a model, decoding or tool error, after any number of tool calls. A reply without choices ends the client with its panic, and running out of model replies ends it as the script running out. A `/prompt` line that panics ends the client with that panic. |
| Client.SessionGoesOn | weather_app/internal/client/client.go:163-268 | After any line that does not stop the client, the session goes on exactly as if it had started at the next line, with the history and model replies that line left. |
| LegacyClient.NonPointerUnmarshal | weather_app/client/client.go:106-112 | Decoding into a map value never succeeds. Malformed text gets its syntax error. Well-formed text of any shape gets the non-pointer refusal. |
| LegacyClient.HandleLine | weather_app/client/client.go:76-153 | An ordinary line never makes the client return nil. |
| LegacyClient.Converse | weather_app/client/client.go:65-156 | The client returns nil only at end of input or on an `exit` line. |
| LegacyClient.ConverseStopsAtOnce | weather_app/client/client.go:65-75 | Empty input returns nil having read nothing. An `exit` first line returns nil after that one line, before any request, with the history still the seed. |
| LegacyClient.StartClient | weather_app/client/client.go:23-76 | A startup failure is returned as an error before any request, and a connection error is returned as it is. Once started, the i-th request shows only the system turn and the i-th line, with the descriptors copied as listed and no token cap. No tool is invoked, and the history stays the seed. |
| LegacyClient.OneRequestPerLine | weather_app/client/client.go:76-112 | A line makes at most one request, showing only the system turn and the line, and never reaches the tool. It lets the client read the next line exactly when the model answers directly. |
| LegacyClient.LineOutcome | weather_app/client/client.go:80-153 | A line leaves the model replies it did not consume, in order. The client reads the next line exactly when the turn ends answered. A model, decoding or tool error is returned as it is. A reply without choices ends it with its panic, and running out of model replies ends it as the script running out. |
| LegacyClient.SessionGoesOn | weather_app/client/client.go:65-155 | After any line that does not stop the client, the session goes on exactly as if it had started at the next line, with the model replies that line left. |
| LegacyClient.EveryRequestStartsAfresh | weather_app/client/client.go:60-156 | The i-th request shows only the system turn and the i-th line. No tool is ever invoked, and the outer history stays the seed. |
| LegacyClient.ErrorsEndTheClient | weather_app/client/client.go:81-112 | A model error or any tool proposal on the first line ends the client after that one line, before any tool is invoked. The error is the model's error, the arguments' syntax error, or the non-pointer refusal. |
| GoQuote.EscapeRune | weather_app/internal/weather_mcp_server/mcp.go:52-55 | Printable ASCII other than the quote and the backslash is kept as itself. Those two are written as a backslash and themselves. ASCII control characters are always written as an escape starting with a backslash. |
| GoQuote.Quote | weather_app/internal/weather_mcp_server/mcp.go:52-55 | The quoted text is enclosed in quotes and reads back as the original string, ending at its closing quote. |
| GoQuote.QuoteRoundTrip | weather_app/internal/weather_mcp_server/mcp.go:52-55 | A quoted value read back gives the value and exactly the text that followed it. |
| GoQuote.EscapeReadsBack | weather_app/internal/weather_mcp_server/mcp.go:52-55 | The escaped body reads back up to its closing quote. |
| WeatherServer.Lookup | weather_app/internal/weather_mcp_server/mcp.go:107-113 | Gives the first record whose name equals the location up to case, or none if no record matches. |
| WeatherServer.Render | weather_app/internal/weather_mcp_server/mcp.go:115-122 | Building the result panics exactly when the record has no description. |
| WeatherServer.GetWeatherMock | weather_app/internal/weather_mcp_server/mcp.go:62-126 | Never returns an error. It panics exactly when no table name matches the location up to case. Otherwise it returns the result built from a table record that matches. |
| WeatherServer.GetWeather | weather_app/internal/weather_mcp_server/mcp.go:44-46 | The outcome is the mock's for the same location whatever key either is given, so the key makes no difference. It panics exactly for an unknown city. |
| WeatherServer.GetWeatherToolHandler | weather_app/internal/weather_mcp_server/mcp.go:178-190 | Echoes the caller's location with a present result, and panics exactly for an unknown city. |
| WeatherServer.TableNamesDistinct | weather_app/internal/weather_mcp_server/mcp.go:63-100 | No two table names match each other up to case, so the first match is the only one. |
| WeatherServer.LookupRespectsFolding | weather_app/internal/weather_mcp_server/mcp.go:108-113 | Two spellings equal up to case get the same outcome. |
| WeatherServer.LookupAgrees | weather_app/internal/weather_mcp_server/mcp.go:108-113 | Two locations matching the same records get the same lookup. |
| WeatherServer.LocationIsCanonical | weather_app/internal/weather_mcp_server/mcp.go:116 | The result's location is the table's spelling, equal up to case to the one asked for. |
| WeatherServer.HumidityReadsBack | weather_app/internal/weather_mcp_server/mcp.go:120 | The humidity field reads back as the record's integer followed by a percent sign. |
| WeatherServer.HandlerEchoesCallerSpelling | weather_app/internal/weather_mcp_server/mcp.go:178-190 | A lower-case "london" is echoed as typed, next to London's rendered record. |
| WeatherServer.UnknownCityPanics | weather_app/internal/weather_mcp_server/mcp.go:107-117 | A city missing from the table panics in the handler. |
| WeatherServer.ReadQuotedAfterRoundTrip | weather_app/internal/weather_mcp_server/mcp.go:52 | A quoted value after a fixed literal reads back. |
| WeatherServer.FillReadsBack | weather_app/internal/weather_mcp_server/mcp.go:48-60 | Whatever the fixed text, both values read back out of the filled template. |
| WeatherServer.CompareWeather | weather_app/internal/weather_mcp_server/mcp.go:48-60 | The comparison text gives back both locations, in order. |
| WeatherServer.FillInjective | weather_app/internal/weather_mcp_server/mcp.go:48-60 | Different pairs of values give different filled texts, so different pairs of locations give different comparison texts. |
| WeatherServer.MapGet | weather_app/internal/weather_mcp_server/mcp.go:193-194 | Reading a missing key gives the empty string. |
| WeatherServer.CompareWeatherPrompt | weather_app/internal/weather_mcp_server/mcp.go:192-212 | Never panics, and refuses exactly when either location is missing or empty, with an error that is not continuable and whose text gives both values as received. Otherwise it returns one user message whose text gives back both locations, in order. |
| SubtractTool.Subtract | basic_mcp_example/main.go:16-17 | Both operands are copied to the output. The result is their difference modulo 2^64, exactly that difference when it fits. There is no protocol result and no error. |
| SubtractTool.ResultIgnored | basic_mcp_example/main.go:16-17 | The incoming result field makes no difference. |
| SubtractTool.AddBackGivesA | basic_mcp_example/main.go:16-17 | Adding B back with the same wrap-around gives A, whatever the overflow. |
| SubtractTool.WrapsAtTheBottom | basic_mcp_example/main.go:17 | The smallest `int` minus one is the largest. |
| Scenarios.LoopOnAnswer | weather_app/internal/client/client.go:263-266 | A direct answer ends the turn after one request and appends the answer. |
| Scenarios.LoopOnToolCall | weather_app/internal/client/client.go:207-260 | A successful tool call appends its intent and result and goes on with the next reply. |
| Scenarios.CurrentClientCarriesHistory | weather_app/internal/client/client.go:152-195 | With two directly answered lines, the current client shows the model the first exchange again with the second line. |
| Scenarios.LegacyClientForgetsHistory | weather_app/client/client.go:60-76 | The same two lines in the older client: the second request shows only the system turn and the second line. |
| Scenarios.TwoToolCallsThenAnswer | weather_app/internal/client/client.go:195-266 | Two tool calls and an answer give two invocations and three requests. The history holds the line, two intent and result pairs, each result after its intent, and the answer. |
| Scenarios.TwoToolCallsTurn | weather_app/internal/client/client.go:197-266 | Inside the loop, the same replies give the two intent and result pairs and the answer after the starting history, one request per reply, with the turn ending answered. |
| Scenarios.ComparePromptNeverLoads | weather_app/internal/weather_mcp_server/mcp.go:265-280 | The server's comparison prompt can never be loaded by the current client: with two or more values it panics, with fewer it is refused. |

## Left out

- Console I/O is not modelled: the stdin scanner is the list of input lines, and printing is dropped.
- The protocol SDK, the transport and the server process are not modelled. The tool session becomes a record of its replies: the prompt list, and the prompt and tool calls as functions of their requests.
- The chat model is a script of replies consumed one per request. Running out of script is an end only the model has (`ScriptExhausted`, `ScriptRanOut`).
- `shlex.Split`, `json.Unmarshal` into a pointer, the syntax scan that `json.Unmarshal` runs first, and `json.Marshal` are collaborators given as functions. Their own behaviour is not modelled.
- ToolLoop.Loop: the token cap is recorded in every request, but its effect on the model's reply is the model's business.
- Client.Dispatch: listing prompts is reduced to whether the listing succeeds. What `ListPrompts` prints is console output.
- A nil reply from the model or the tool session, and a tool call with a nil function call, are not modelled. The SDKs do not return them alongside a nil error.
- GoValues.EqualFold: only the case-folding orbits that contain an ASCII letter are modelled. Go also matches non-ASCII pairs such as "É" and "é", which the model does not. The table's names are ASCII, and the only non-ASCII runes that fold onto ASCII letters (the Kelvin sign and the long s) are modelled, so every lookup is decided as in Go.
- GoValues.ToLower: only the non-ASCII runes that lower or fold to ASCII letters are modelled. Other non-ASCII case mappings change no comparison against the ASCII keywords and table names used here.
- GoQuote.EscapeRune: every non-ASCII rune is kept as it is, printable or not. Go escapes non-printable non-ASCII runes as `\u` or `\U`, and deciding printability needs the Unicode tables.
- GoQuote.Quote: every non-ASCII rune is kept as it is. Go escapes non-printable non-ASCII runes as `\u` or `\U`, and deciding printability needs the Unicode tables.
- WeatherServer.Render: temperatures and wind speeds are kept as their `%.1f` renderings of the table's values. Floating-point formatting is not modelled.
- WeatherServer.GetWeatherMock: the mock JSON is given already decoded, as the table. Decoding a constant text cannot fail, so its error branch is not reachable.
- The HTTP weather lookup (`getWeather`) is left out because it does network I/O and nothing calls it.
- The file resource handler (`HandleDeliveryLog`) is left out because it reads a file and neither client reads resources.
- Server registration (`StartServer`, the example server's `main`) is not modelled. Only the registered `compare_weather` prompt descriptor is kept, as a constant.
- `weather_app/weather_server/tool.go`, `gemini_sdk/main.go` and `weather_app/cmd/weatherai/main.go` are not part of this model.

=== FILE: client.dfy ===
/** The current client (`internal/client`): one conversation history for
    the whole session, starting empty. Each input line is dispatched:
    `exit` in any letter case ends the client; `/prompts` in any letter
    case lists the server's prompts and then goes on as an ordinary line;
    a line starting with `/prompt` runs the prompt command and is skipped
    when that fails. Every line that gets through is appended as a user
    turn, raw as typed, and the tool-calling loop runs on the history.
    Model, decoding and tool errors end only the current turn. */
module Client {
  import opened GoValues
  import opened Protocol
  import opened Descriptors
  import opened Prompts
  import opened ToolLoop

  /** The `WithMaxTokens` option of every model request. */
  const MaxTokens: nat := 1000

  /** What the client does with one input line before the model is called. */
  datatype LineAction = Quit | Skip | Send(text: string) | Crash(reason: string)

  /** Input dispatch. */
  function Dispatch(line: string, session: Session, codecs: Codecs): (a: LineAction)
    ensures a == Quit <==> ToLower(line) == "exit"
    ensures a.Send? ==> a.text == line
  {
    if ToLower(line) == "exit" then Quit
    else if ToLower(line) == "/prompts" then
      (if session.listPrompts.Failure? then Skip else Send(line))
    else if HasPrefix(line, "/prompt") then
      match HandlePrompts(line, session, codecs)
      case Err(_) => Skip
      case Panic(reason) => Crash(reason)
      case Ok(_) => Send(line)
    else Send(line)
  }

  /** The four ways a line is handled: `exit` in any letter case quits;
      `/prompts` in any letter case is sent unless listing the prompts
      fails; a `/prompt` command crashes the client when the prompt command
      panics and is skipped when it returns an error; everything else,
      successful prompt commands included, is sent as typed. */
  lemma DispatchCases(line: string, session: Session, codecs: Codecs)
    ensures var a := Dispatch(line, session, codecs);
      a.Crash? ==>
        HasPrefix(line, "/prompt") && ToLower(line) != "/prompts" && HandlePrompts(line, session, codecs).Panic?
    ensures var a := Dispatch(line, session, codecs);
      a.Skip? <==>
        || (ToLower(line) == "/prompts" && session.listPrompts.Failure?)
        || (ToLower(line) != "exit" && ToLower(line) != "/prompts" && HasPrefix(line, "/prompt")
            && HandlePrompts(line, session, codecs).Err?)
    ensures var a := Dispatch(line, session, codecs);
      a.Send? <==>
        || (ToLower(line) == "/prompts" && session.listPrompts.Success?)
        || (ToLower(line) != "exit" && ToLower(line) != "/prompts" && HasPrefix(line, "/prompt")
            && HandlePrompts(line, session, codecs).Ok?)
        || (ToLower(line) != "exit" && ToLower(line) != "/prompts" && !HasPrefix(line, "/prompt"))
  {
  }

  /** The lines that reach the model, in order. */
  function SentLines(lines: seq<string>, session: Session, codecs: Codecs): seq<string>
  {
    if |lines| == 0 then []
    else
      var first := if Dispatch(lines[0], session, codecs).Send? then [lines[0]] else [];
      first + SentLines(lines[1..], session, codecs)
  }

  /** The effect of one input line: the history, script, requests and
      invocations after it, and the exit if the line ends the client. */
  datatype LineResult = LineResult(
    history: seq<Message>,
    script: seq<ModelReply>,
    requests: seq<ModelRequest>,
    invocations: seq<ToolRequest>,
    stop: Option<Exit>)

  /** One iteration of the input loop: dispatch the line and, if it is
      sent, append it as a user turn and run the tool-calling loop.
      Model, decoding and tool errors end only the turn; a reply without
      choices is a panic. */
  function HandleLine(line: string, h: seq<Message>, script: seq<ModelReply>, tools: seq<LlmTool>,
                      session: Session, codecs: Codecs): (o: LineResult)
    ensures h <= o.history
    ensures o.stop != Some(ReturnedNil) ==> !Dispatch(line, session, codecs).Quit?
    ensures o.stop == Some(ReturnedNil) <==> ToLower(line) == "exit"
    ensures o.stop.Some? ==> !o.stop.value.ReturnedError?
    ensures !Dispatch(line, session, codecs).Send? ==> o.history == h && o.requests == [] && o.invocations == []
  {
    match Dispatch(line, session, codecs)
    case Quit => LineResult(h, script, [], [], Some(ReturnedNil))
    case Crash(reason) => LineResult(h, script, [], [], Some(Panicked(reason)))
    case Skip => LineResult(h, script, [], [], None)
    case Send(text) =>
      var turn := Loop(h + [TextMessage(Human, text)], script, tools, Some(MaxTokens), codecs.unmarshal, session.callTool);
      var stop := if turn.end.Crashed? then Some(Panicked(turn.end.reason))
                  else if turn.end.ScriptExhausted? then Some(ScriptRanOut)
                  else None;
      LineResult(turn.history, turn.script, turn.requests, turn.invocations, stop)
  }

  /** The input loop over the lines; running out of lines ends it. */
  function Converse(lines: seq<string>, h: seq<Message>, script: seq<ModelReply>, tools: seq<LlmTool>,
                    session: Session, codecs: Codecs): (r: Run)
    ensures h <= r.history
    ensures 0 < r.consumed <= |lines| || (r.consumed == 0 && lines == [])
    ensures !r.exit.ReturnedError?
    ensures r.exit.ReturnedNil? ==> r.consumed == |lines| || ToLower(lines[r.consumed - 1]) == "exit"
    decreases |lines|
  {
    if |lines| == 0 then Run(h, [], [], 0, ReturnedNil)
    else
      var o := HandleLine(lines[0], h, script, tools, session, codecs);
      if o.stop.Some? then Run(o.history, o.requests, o.invocations, 1, o.stop.value)
      else
        var rest := Converse(lines[1..], o.history, o.script, tools, session, codecs);
        assert rest.exit.ReturnedNil? && rest.consumed > 0 ==> lines[rest.consumed] == lines[1..][rest.consumed - 1];
        Run(rest.history, o.requests + rest.requests, o.invocations + rest.invocations, rest.consumed + 1, rest.exit)
  }

  /** The two ways to end at once: with no input the client returns nil
      having read nothing, and an `exit` first line returns nil after that
      one line, before any request and with the history as it was. */
  lemma ConverseStopsAtOnce(lines: seq<string>, h: seq<Message>, script: seq<ModelReply>, tools: seq<LlmTool>,
                            session: Session, codecs: Codecs)
    ensures lines == [] ==> Converse(lines, h, script, tools, session, codecs).exit == ReturnedNil && Converse(lines, h, script, tools, session, codecs).consumed == 0
    ensures |lines| > 0 && ToLower(lines[0]) == "exit" ==>
      var r := Converse(lines, h, script, tools, session, codecs);
      r.exit == ReturnedNil && r.consumed == 1 && r.requests == [] && r.history == h
  {
  }

  /** `StartClient`: a startup failure is returned before any request;
      once started, the session runs from an empty history with the
      converted tool descriptors. */
  function StartClient(startup: Startup, lines: seq<string>, script: seq<ModelReply>,
                       session: Session, codecs: Codecs): (r: Run)
    ensures r.consumed <= |lines|
    ensures r.exit.ReturnedError? <==> !StartsUp(startup)
    ensures r.exit.ReturnedError? ==> r.history == [] && r.requests == []
  {
    if startup.connectError.Some? then
      Run([], [], [], 0, ReturnedError(PlainError("error while connecting to mcp client: " + startup.connectError.value)))
    else if startup.listedTools.Failure? then
      Run([], [], [], 0, ReturnedError(PlainError(startup.listedTools.error)))
    else if startup.modelError.Some? then
      Run([], [], [], 0, ReturnedError(PlainError(startup.modelError.value)))
    else
      Converse(lines, [], script, ConvertTools(startup.listedTools.value), session, codecs)
  }

  /** Once started, the client begins with an empty history: its first
      request shows the first sent line alone. Every request offers the
      converted tool descriptors with the 1000-token cap and shows a prefix
      of the final history, and the user turns are the sent lines. */
  lemma StartedClient(startup: Startup, lines: seq<string>, script: seq<ModelReply>,
                      session: Session, codecs: Codecs)
    requires StartsUp(startup)
    ensures var r := StartClient(startup, lines, script, session, codecs);
      && RequestsWithin(r.requests, [], r.history, ConvertTools(startup.listedTools.value), Some(MaxTokens))
      && UserTexts(r.history) == SentLines(lines[..r.consumed], session, codecs)
      && (|r.requests| > 0 ==>
            var sent := SentLines(lines[..r.consumed], session, codecs);
            |sent| > 0 && r.requests[0].context == [TextMessage(Human, sent[0])])
  {
    var tools := ConvertTools(startup.listedTools.value);
    assert StartClient(startup, lines, script, session, codecs) == Converse(lines, [], script, tools, session, codecs);
    RequestsSeeWholeHistory(lines, [], script, tools, session, codecs);
    UserTurnsAreSentLines(lines, [], script, tools, session, codecs);
    FirstRequestShowsFirstSentLine(lines, [], script, tools, session, codecs);
  }

  // ---------------------------------------------------------------------
  // One line
  // ---------------------------------------------------------------------

  /** A sent line adds exactly one user turn, the line itself; any other
      line adds none. */
  lemma LineUserTexts(line: string, h: seq<Message>, script: seq<ModelReply>, tools: seq<LlmTool>,
                      session: Session, codecs: Codecs)
    ensures UserTexts(HandleLine(line, h, script, tools, session, codecs).history)
         == UserTexts(h) + (if Dispatch(line, session, codecs).Send? then [line] else [])
  {
    if Dispatch(line, session, codecs).Send? {
      var start := h + [TextMessage(Human, line)];
      var turn := Loop(start, script, tools, Some(MaxTokens), codecs.unmarshal, session.callTool);
      assert HandleLine(line, h, script, tools, session, codecs).history == turn.history;
      var suffix := turn.history[|start|..];
      assert turn.history == start + suffix;
      LoopCounts(start, script, tools, Some(MaxTokens), codecs.unmarshal, session.callTool);
      assert RoleCount(turn.history, Human) == RoleCount(start, Human);
      RoleCountAppend(start, suffix, Human);
      UserTextsWithoutHumanTurns(suffix);
      UserTextsAppend(start, suffix);
      UserTextsAppend(h, [TextMessage(Human, line)]);
      assert UserTexts([TextMessage(Human, line)]) == [line];
    } else {
      assert UserTexts(h) + [] == UserTexts(h);
    }
  }

  lemma LineKeepsCorrelation(line: string, h: seq<Message>, script: seq<ModelReply>, tools: seq<LlmTool>,
                             session: Session, codecs: Codecs)
    requires Correlated(h)
    ensures Correlated(HandleLine(line, h, script, tools, session, codecs).history)
  {
    if Dispatch(line, session, codecs).Send? {
      var start := h + [TextMessage(Human, line)];
      CorrelatedAppend(h, [TextMessage(Human, line)]);
      LoopKeepsCorrelation(start, script, tools, Some(MaxTokens), codecs.unmarshal, session.callTool);
    }
  }

  lemma LineRequestsSeeHistory(line: string, h: seq<Message>, script: seq<ModelReply>, tools: seq<LlmTool>,
                               session: Session, codecs: Codecs)
    ensures var o := HandleLine(line, h, script, tools, session, codecs);
      RequestsWithin(o.requests, h, o.history, tools, Some(MaxTokens))
  {
    if Dispatch(line, session, codecs).Send? {
      var start := h + [TextMessage(Human, line)];
      LoopRequestsSeeHistory(start, script, tools, Some(MaxTokens), codecs.unmarshal, session.callTool);
    }
  }

  // ---------------------------------------------------------------------
  // The whole session
  // ---------------------------------------------------------------------

  lemma SentLinesCons(lines: seq<string>, k: nat, session: Session, codecs: Codecs)
    requires 0 < k <= |lines|
    ensures SentLines(lines[..k], session, codecs)
         == (if Dispatch(lines[0], session, codecs).Send? then [lines[0]] else [])
            + SentLines(lines[1..][..k - 1], session, codecs)
  {
    assert lines[..k][0] == lines[0];
    assert lines[..k][1..] == lines[1..][..k - 1];
  }

  /** The user turns of the final history are exactly the lines that got
      through dispatch, in the order typed, among the lines read. */
  lemma {:induction false} UserTurnsAreSentLines(lines: seq<string>, h: seq<Message>, script: seq<ModelReply>,
                                                 tools: seq<LlmTool>, session: Session, codecs: Codecs)
    ensures var r := Converse(lines, h, script, tools, session, codecs);
      UserTexts(r.history) == UserTexts(h) + SentLines(lines[..r.consumed], session, codecs)
    decreases |lines|
  {
    if |lines| == 0 {
      assert lines[..0] == [];
    } else {
      var o := HandleLine(lines[0], h, script, tools, session, codecs);
      if o.stop.Some? {
        UserTurnsOnStop(lines, h, script, tools, session, codecs);
      } else {
        UserTurnsAreSentLines(lines[1..], o.history, o.script, tools, session, codecs);
        UserTurnsOnContinue(lines, h, script, tools, session, codecs);
      }
    }
  }

  lemma UserTurnsOnStop(lines: seq<string>, h: seq<Message>, script: seq<ModelReply>,
                        tools: seq<LlmTool>, session: Session, codecs: Codecs)
    requires |lines| > 0 && HandleLine(lines[0], h, script, tools, session, codecs).stop.Some?
    ensures var r := Converse(lines, h, script, tools, session, codecs);
      UserTexts(r.history) == UserTexts(h) + SentLines(lines[..r.consumed], session, codecs)
  {
    var r := Converse(lines, h, script, tools, session, codecs);
    var o := HandleLine(lines[0], h, script, tools, session, codecs);
    LineUserTexts(lines[0], h, script, tools, session, codecs);
    assert r.history == o.history && r.consumed == 1;
    SentLinesCons(lines, 1, session, codecs);
    assert lines[1..][..0] == [];
  }

  lemma UserTurnsOnContinue(lines: seq<string>, h: seq<Message>, script: seq<ModelReply>,
                            tools: seq<LlmTool>, session: Session, codecs: Codecs)
    requires |lines| > 0
    requires var o := HandleLine(lines[0], h, script, tools, session, codecs);
      && o.stop.None?
      && var rest := Converse(lines[1..], o.history, o.script, tools, session, codecs);
         UserTexts(rest.history) == UserTexts(o.history) + SentLines(lines[1..][..rest.consumed], session, codecs)
    ensures var r := Converse(lines, h, script, tools, session, codecs);
      UserTexts(r.history) == UserTexts(h) + SentLines(lines[..r.consumed], session, codecs)
  {
    var r := Converse(lines, h, script, tools, session, codecs);
    var o := HandleLine(lines[0], h, script, tools, session, codecs);
    var rest := Converse(lines[1..], o.history, o.script, tools, session, codecs);
    var first := if Dispatch(lines[0], session, codecs).Send? then [lines[0]] else [];
    LineUserTexts(lines[0], h, script, tools, session, codecs);
    assert r.history == rest.history && r.consumed == rest.consumed + 1;
    SentLinesCons(lines, r.consumed, session, codecs);
    var later := SentLines(lines[1..][..rest.consumed], session, codecs);
    assert SentLines(lines[..r.consumed], session, codecs) == first + later;
    assert UserTexts(r.history) == UserTexts(h) + first + later;
    AppendAssociates(UserTexts(h), first, later);
  }

  /** The whole session keeps the correlation invariant. */
  lemma {:induction false} SessionKeepsCorrelation(lines: seq<string>, h: seq<Message>, script: seq<ModelReply>,
                                                   tools: seq<LlmTool>, session: Session, codecs: Codecs)
    requires Correlated(h)
    ensures Correlated(Converse(lines, h, script, tools, session, codecs).history)
    decreases |lines|
  {
    if |lines| > 0 {
      var o := HandleLine(lines[0], h, script, tools, session, codecs);
      LineKeepsCorrelation(lines[0], h, script, tools, session, codecs);
      if o.stop.None? {
        SessionKeepsCorrelation(lines[1..], o.history, o.script, tools, session, codecs);
      }
    }
  }

  /** History accumulates across the session: every model request shows
      the history as it stood, which extends the starting history and is a
      prefix of the final one; every request offers the same tools and
      asks for at most 1000 tokens. */
  lemma {:induction false} RequestsSeeWholeHistory(lines: seq<string>, h: seq<Message>, script: seq<ModelReply>,
                                                   tools: seq<LlmTool>, session: Session, codecs: Codecs)
    ensures var r := Converse(lines, h, script, tools, session, codecs);
      RequestsWithin(r.requests, h, r.history, tools, Some(MaxTokens))
    decreases |lines|
  {
    var r := Converse(lines, h, script, tools, session, codecs);
    if |lines| > 0 {
      var o := HandleLine(lines[0], h, script, tools, session, codecs);
      LineRequestsSeeHistory(lines[0], h, script, tools, session, codecs);
      if o.stop.None? {
        var rest := Converse(lines[1..], o.history, o.script, tools, session, codecs);
        RequestsSeeWholeHistory(lines[1..], o.history, o.script, tools, session, codecs);
        assert r.requests == o.requests + rest.requests;
        RequestsWithinConcat(o.requests, rest.requests, h, o.history, r.history, tools, Some(MaxTokens));
      }
    }
  }

  // ---------------------------------------------------------------------
  // Errors inside a turn
  // ---------------------------------------------------------------------

  /** The model reply ends the turn on an error: the model call failed, or
      the proposed tool call did not decode or the tool returned an
      error. */
  predicate FailsTurn(reply: ModelReply, decode: string -> Result<Arguments>,
                      callTool: (string, Arguments) -> ToolReply)
  {
    || reply.ModelError?
    || (&& reply.Generated? && |reply.choices| > 0 && |reply.choices[0].toolCalls| > 0
        && var call := reply.choices[0].toolCalls[0];
           || decode(call.functionCall.arguments).Failure?
           || callTool(call.functionCall.name, decode(call.functionCall.arguments).value).ToolErr?)
  }

  /** A model, decoding or tool error ends only the turn: the line makes
      one request and does not stop the client. The history keeps the user
      turn, and, for a decoding or tool error, the unanswered intent. */
  lemma ErrorsEndOnlyTheTurn(line: string, h: seq<Message>, script: seq<ModelReply>, tools: seq<LlmTool>,
                             session: Session, codecs: Codecs)
    requires Dispatch(line, session, codecs) == Send(line)
    requires |script| > 0 && FailsTurn(script[0], codecs.unmarshal, session.callTool)
    ensures var o := HandleLine(line, h, script, tools, session, codecs);
      && o.stop == None
      && o.script == script[1..]
      && o.requests == [ModelRequest(h + [TextMessage(Human, line)], tools, Some(MaxTokens))]
      && o.history == h + [TextMessage(Human, line)]
                        + (if script[0].ModelError? then [] else [IntentMessage(script[0].choices[0].toolCalls[0])])
  {
    var start := h + [TextMessage(Human, line)];
    var s := Step(start, script[0], codecs.unmarshal, session.callTool);
    assert s.next.EndTurn? && (s.next.end.ModelFailed? || s.next.end.DecodeFailed? || s.next.end.ToolFailed?);
    if script[0].Generated? {
      var call := script[0].choices[0].toolCalls[0];
      assert s == ToolStep(start, call, codecs.unmarshal, session.callTool);
      assert s.history == start + [IntentMessage(call)];
    }
  }

  /** Every line that does not stop the client hands the rest of the
      input on: the session continues exactly as if it had started at the
      next line, with the history and model replies this line left. */
  lemma SessionGoesOn(lines: seq<string>, h: seq<Message>, script: seq<ModelReply>,
                      tools: seq<LlmTool>, session: Session, codecs: Codecs)
    requires |lines| > 0 && HandleLine(lines[0], h, script, tools, session, codecs).stop.None?
    ensures var o := HandleLine(lines[0], h, script, tools, session, codecs);
      var r := Converse(lines, h, script, tools, session, codecs);
      var rest := Converse(lines[1..], o.history, o.script, tools, session, codecs);
      && r.history == rest.history && r.exit == rest.exit && r.consumed == rest.consumed + 1
      && r.requests == o.requests + rest.requests && r.invocations == o.invocations + rest.invocations
  {
  }

  /** What one line leaves for the next: the model replies it did not
      consume, in order. A skipped line goes on; a sent line goes on
      exactly when its turn ends answered or on a model, decoding or tool
      error, after any number of tool calls. A reply without choices ends
      the client with that index panic, a model with no reply left ends it
      as the script running out, and a prompt command that panics ends it
      with its panic. */
  lemma LineOutcome(line: string, h: seq<Message>, script: seq<ModelReply>, tools: seq<LlmTool>,
                    session: Session, codecs: Codecs)
    ensures var o := HandleLine(line, h, script, tools, session, codecs);
      |o.requests| <= |script| && o.script == script[|o.requests|..]
    ensures Dispatch(line, session, codecs).Skip? ==> HandleLine(line, h, script, tools, session, codecs).stop.None?
    ensures Dispatch(line, session, codecs).Send? ==>
      var o := HandleLine(line, h, script, tools, session, codecs);
      var turn := Loop(h + [TextMessage(Human, line)], script, tools, Some(MaxTokens), codecs.unmarshal, session.callTool);
      && (o.stop.None? <==> turn.end.Answered? || turn.end.ModelFailed? || turn.end.DecodeFailed? || turn.end.ToolFailed?)
      && (turn.end.Crashed? ==> o.stop == Some(Panicked(turn.end.reason)))
      && (turn.end.ScriptExhausted? ==> o.stop == Some(ScriptRanOut))
    ensures Dispatch(line, session, codecs).Crash? ==>
      HandleLine(line, h, script, tools, session, codecs).stop == Some(Panicked(Dispatch(line, session, codecs).reason))
  {
    if Dispatch(line, session, codecs).Send? {
      LoopConsumesInOrder(h + [TextMessage(Human, line)], script, tools, Some(MaxTokens), codecs.unmarshal, session.callTool);
    }
  }

  /** The first request of a session shows the starting history and the
      first line that got through dispatch. */
  lemma {:induction false} FirstRequestShowsFirstSentLine(lines: seq<string>, h: seq<Message>,
      script: seq<ModelReply>, tools: seq<LlmTool>, session: Session, codecs: Codecs)
    ensures var r := Converse(lines, h, script, tools, session, codecs);
      var sent := SentLines(lines[..r.consumed], session, codecs);
      |r.requests| > 0 ==> |sent| > 0 && r.requests[0].context == h + [TextMessage(Human, sent[0])]
    decreases |lines|
  {
    var r := Converse(lines, h, script, tools, session, codecs);
    if |lines| > 0 && |r.requests| > 0 {
      var o := HandleLine(lines[0], h, script, tools, session, codecs);
      SentLinesCons(lines, r.consumed, session, codecs);
      if Dispatch(lines[0], session, codecs).Send? {
        var start := h + [TextMessage(Human, lines[0])];
        LoopRequestsSeeHistory(start, script, tools, Some(MaxTokens), codecs.unmarshal, session.callTool);
        assert |o.requests| > 0 && r.requests[0] == o.requests[0];
      } else {
        var rest := Converse(lines[1..], o.history, o.script, tools, session, codecs);
        FirstRequestShowsFirstSentLine(lines[1..], o.history, o.script, tools, session, codecs);
        assert r.requests == rest.requests && r.consumed == rest.consumed + 1;
      }
    }
  }
}

=== FILE: descriptors.dfy ===
/** Turning the tool server's tool list into the function-calling
    descriptors offered to the model. The current client substitutes an
    empty object schema for a missing one; the older client copies the
    schema as it is, nil included. */
module Descriptors {
  import opened GoValues
  import opened Protocol

  /** `{"type": "object", "properties": {}}` */
  const EmptyObjectSchema: Json :=
    JObject([("type", JString("object")), ("properties", JObject([]))])

  /** The schema the current client offers for a tool. */
  function DefaultedSchema(schema: Option<Json>): (p: Json)
    ensures schema.None? ==> p == EmptyObjectSchema
    ensures schema.Some? ==> p == schema.value
  {
    match schema
    case None => EmptyObjectSchema
    case Some(s) => s
  }

  /** Whether `d` is the descriptor offered for `t` when the schema is
      replaced by `parameters`. */
  predicate Describes(d: LlmTool, t: McpTool, parameters: Option<Json>)
  {
    && d.toolType == "function"
    && d.definition.name == t.name
    && d.definition.description == t.description
    && d.definition.parameters == parameters
  }

  /** The conversion loop of the current client: one descriptor per tool,
      in order, with a defaulted schema. */
  function ConvertTools(tools: seq<McpTool>): (r: seq<LlmTool>)
    ensures |r| == |tools|
    ensures forall i :: 0 <= i < |tools| ==>
      Describes(r[i], tools[i], Some(DefaultedSchema(tools[i].inputSchema)))
    ensures forall i :: 0 <= i < |r| ==> r[i].definition.parameters.Some?
  {
    if |tools| == 0 then []
    else
      var t := tools[0];
      [LlmTool("function", FunctionDefinition(t.name, t.description, Some(DefaultedSchema(t.inputSchema))))]
        + ConvertTools(tools[1..])
  }

  /** The conversion loop of the older client: schemas copied verbatim. */
  function CopyTools(tools: seq<McpTool>): (r: seq<LlmTool>)
    ensures |r| == |tools|
    ensures forall i :: 0 <= i < |tools| ==> Describes(r[i], tools[i], tools[i].inputSchema)
  {
    if |tools| == 0 then []
    else
      var t := tools[0];
      [LlmTool("function", FunctionDefinition(t.name, t.description, t.inputSchema))] + CopyTools(tools[1..])
  }

  /** Reads a descriptor back as a tool listing. */
  function AsMcpTool(d: LlmTool): McpTool
  {
    McpTool(d.definition.name, d.definition.description, d.definition.parameters)
  }

  function AsMcpTools(ds: seq<LlmTool>): (r: seq<McpTool>)
    ensures |r| == |ds|
    ensures forall i :: 0 <= i < |ds| ==> r[i] == AsMcpTool(ds[i])
  {
    if |ds| == 0 then [] else [AsMcpTool(ds[0])] + AsMcpTools(ds[1..])
  }

  /** Conversion is idempotent: converting the converted descriptors again
      changes nothing. */
  lemma ConvertIdempotent(tools: seq<McpTool>)
    ensures ConvertTools(AsMcpTools(ConvertTools(tools))) == ConvertTools(tools)
  {
    var once := ConvertTools(tools);
    var twice := ConvertTools(AsMcpTools(once));
    assert |twice| == |once|;
    forall i | 0 <= i < |once|
      ensures twice[i] == once[i]
    {
      assert AsMcpTools(once)[i] == AsMcpTool(once[i]);
    }
  }

  /** The older copy is the identity on descriptors read back. */
  lemma CopyRoundTrip(tools: seq<McpTool>)
    ensures AsMcpTools(CopyTools(tools)) == tools
  {
    var back := AsMcpTools(CopyTools(tools));
    assert |back| == |tools|;
    forall i | 0 <= i < |tools|
      ensures back[i] == tools[i]
    {
    }
  }

  /** Conversion distributes over concatenation, so it keeps the order of
      the listing. */
  lemma {:induction false} ConvertAppend(a: seq<McpTool>, b: seq<McpTool>)
    ensures ConvertTools(a + b) == ConvertTools(a) + ConvertTools(b)
    decreases |a|
  {
    if |a| == 0 {
      assert a + b == b;
    } else {
      assert (a + b)[1..] == a[1..] + b;
      ConvertAppend(a[1..], b);
    }
  }

  /** The two clients offer the same descriptors exactly when no listed
      tool lacks an input schema. */
  lemma ClientsAgreeIffSchemasPresent(tools: seq<McpTool>)
    ensures ConvertTools(tools) == CopyTools(tools)
      <==> forall i :: 0 <= i < |tools| ==> tools[i].inputSchema.Some?
  {
    var c := ConvertTools(tools);
    var p := CopyTools(tools);
    if forall i :: 0 <= i < |tools| ==> tools[i].inputSchema.Some? {
      forall i | 0 <= i < |tools|
        ensures c[i] == p[i]
      {
      }
      assert c == p;
    } else {
      var i :| 0 <= i < |tools| && tools[i].inputSchema.None?;
      assert c[i].definition.parameters != p[i].definition.parameters;
    }
  }
}

=== FILE: go_values.dfy ===
/** Go-level values shared by every component: optional values, the
    (value, error) return convention, run-time panics, and the pieces of
    the `strings` and `strconv` packages the programs use. */
module GoValues {

  /** A value that may be absent (a nil pointer, a nil map or slice). */
  datatype Option<+T> = None | Some(value: T)

  /** A Go `error`. `continuable` is true exactly when the error wraps the
      client's `ErrShouldContinue` sentinel with `%w`. */
  datatype Error = Error(text: string, continuable: bool)

  /** What a Go call can do: return a value with a nil error, return a
      non-nil error, or panic (nil dereference, index out of range, write
      to a nil map). */
  datatype Outcome<+T> = Ok(value: T) | Err(error: Error) | Panic(reason: string)

  /** The message text of the client's sentinel error. */
  const ShouldContinueText: string := "err not harmful"

  function PlainError(text: string): (e: Error)
    ensures !e.continuable && e.text == text
  {
    Error(text, false)
  }

  /** `fmt.Errorf("<prefix> %w", ErrShouldContinue)`-style wrapping. */
  function WrapShouldContinue(prefix: string): (e: Error)
    ensures e.continuable
    ensures e.text == prefix + ShouldContinueText
  {
    Error(prefix + ShouldContinueText, true)
  }

  /** Concatenation regroups freely. Stated once so that proofs with large
      contexts can cite it instead of rediscovering it. */
  lemma AppendAssociates<T>(a: seq<T>, b: seq<T>, c: seq<T>)
    ensures a + b + c == a + (b + c)
  {
  }

  // ---------------------------------------------------------------------
  // strings.HasPrefix, strings.ToLower, strings.EqualFold
  // ---------------------------------------------------------------------

  /** `strings.HasPrefix`: `s` is `prefix` followed by something. */
  function HasPrefix(s: string, prefix: string): (r: bool)
    ensures r <==> exists rest :: s == prefix + rest
  {
    if |prefix| <= |s| && s[..|prefix|] == prefix then
      assert s == prefix + s[|prefix|..];
      true
    else false
  }

  predicate IsAsciiUpper(c: char)
  {
    'A' <= c <= 'Z'
  }

  /** The rune-wise lower-case mapping of `strings.ToLower`. Besides A-Z,
      the only runes Go lower-cases onto an ASCII letter are U+0130 (to
      'i') and U+212A, the Kelvin sign (to 'k'); every other rune is kept.
      That makes `ToLower(s) == w` exact whenever `w` is ASCII. */
  function LowerRune(c: char): (d: char)
    ensures IsAsciiUpper(c) ==> d as int == c as int + 32
    ensures !IsAsciiUpper(c) && c != '\U{0130}' && c != '\U{212A}' ==> d == c
    ensures c == '\U{0130}' ==> d == 'i'
    ensures c == '\U{212A}' ==> d == 'k'
  {
    if IsAsciiUpper(c) then (c as int + 32) as char
    else if c == '\U{0130}' then 'i'
    else if c == '\U{212A}' then 'k'
    else c
  }

  function ToLower(s: string): (r: string)
    ensures |r| == |s|
    ensures forall i :: 0 <= i < |s| ==> r[i] == LowerRune(s[i])
  {
    if |s| == 0 then [] else [LowerRune(s[0])] + ToLower(s[1..])
  }

  /** Every rune of `s` is ASCII. */
  predicate IsAscii(s: string)
  {
    forall i :: 0 <= i < |s| ==> s[i] < '\U{80}'
  }

  /** Two runes that are equal, or the upper- and lower-case forms of one
      ASCII letter. */
  predicate SameUpToAsciiCase(c: char, d: char)
  {
    || c == d
    || (IsAsciiUpper(c) && d as int == c as int + 32)
    || (IsAsciiUpper(d) && c as int == d as int + 32)
  }

  /** The representative of a rune's simple case-folding orbit, as
      `strings.EqualFold` uses it. The orbits that contain an ASCII letter
      are {A..Z, a..z} pairwise, {K, k, U+212A} and {S, s, U+017F}. */
  function FoldRune(c: char): char
  {
    if IsAsciiUpper(c) then (c as int + 32) as char
    else if c == '\U{212A}' then 'k'
    else if c == '\U{017F}' then 's'
    else c
  }

  /** `strings.EqualFold`: equal under simple case folding, rune by rune.
      Equal strings match, strings that differ only in the case of ASCII
      letters match, and matching strings have the same length. Between
      ASCII strings, nothing else matches. */
  function EqualFold(a: string, b: string): (r: bool)
    ensures a == b ==> r
    ensures r ==> |a| == |b|
    ensures |a| == |b| && (forall i :: 0 <= i < |a| ==> SameUpToAsciiCase(a[i], b[i])) ==> r
    ensures IsAscii(a) && IsAscii(b) ==>
      (r <==> |a| == |b| && forall i :: 0 <= i < |a| ==> SameUpToAsciiCase(a[i], b[i]))
  {
    |a| == |b| && forall i :: 0 <= i < |a| ==> FoldRune(a[i]) == FoldRune(b[i])
  }

  lemma EqualFoldIsEquivalence(a: string, b: string, c: string)
    ensures EqualFold(a, a)
    ensures EqualFold(a, b) ==> EqualFold(b, a)
    ensures EqualFold(a, b) && EqualFold(b, c) ==> EqualFold(a, c)
  {
  }

  // ---------------------------------------------------------------------
  // Decimal rendering of integers (`%d`) and its inverse
  // ---------------------------------------------------------------------

  function DigitChar(d: nat): (c: char)
    requires d < 10
    ensures '0' <= c <= '9'
  {
    ('0' as int + d) as char
  }

  function DigitValue(c: char): (d: nat)
    requires '0' <= c <= '9'
    ensures d < 10 && DigitChar(d) == c
  {
    c as int - '0' as int
  }

  predicate AllDigits(s: string)
  {
    forall i :: 0 <= i < |s| ==> '0' <= s[i] <= '9'
  }

  /** Decimal digits of a natural number, most significant first, with no
      leading zero. */
  function NatToDecimal(n: nat): (s: string)
    ensures |s| > 0 && AllDigits(s)
    ensures |s| > 1 ==> s[0] != '0'
    decreases n
  {
    if n < 10 then [DigitChar(n)] else NatToDecimal(n / 10) + [DigitChar(n % 10)]
  }

  /** `%d` on a Go integer. */
  function FormatInt(n: int): (s: string)
    ensures |s| > 0
    ensures s[0] == '-' <==> n < 0
    ensures n >= 0 ==> AllDigits(s)
    ensures n < 0 ==> |s| > 1 && AllDigits(s[1..])
  {
    if n < 0 then "-" + NatToDecimal(-n) else NatToDecimal(n)
  }

  /** Reads back a string of decimal digits. */
  function DecimalValue(s: string): nat
    requires AllDigits(s)
    decreases |s|
  {
    if |s| == 0 then 0 else DecimalValue(s[..|s| - 1]) * 10 + DigitValue(s[|s| - 1])
  }

  /** Reads back the output of `FormatInt`. */
  function ParseInt(s: string): Option<int>
  {
    if |s| > 0 && s[0] == '-' && AllDigits(s[1..]) && |s| > 1 then Some(-(DecimalValue(s[1..]) as int))
    else if |s| > 0 && AllDigits(s) then Some(DecimalValue(s))
    else None
  }

  lemma {:induction false} DecimalRoundTrip(n: nat)
    ensures DecimalValue(NatToDecimal(n)) == n
    decreases n
  {
    if n >= 10 {
      var prefix := NatToDecimal(n / 10);
      var s := prefix + [DigitChar(n % 10)];
      assert s[..|s| - 1] == prefix;
      DecimalRoundTrip(n / 10);
    }
  }

  /** `%d` loses nothing: the rendered integer reads back as itself. */
  lemma FormatIntRoundTrip(n: int)
    ensures ParseInt(FormatInt(n)) == Some(n)
  {
    if n < 0 {
      NegativeRoundTrip(n);
    } else {
      NonNegativeRoundTrip(n);
    }
  }

  lemma NegativeRoundTrip(n: int)
    requires n < 0
    ensures ParseInt(FormatInt(n)) == Some(n)
  {
    var d := NatToDecimal(-n);
    var s := "-" + d;
    assert s[0] == '-' && s[1..] == d;
    DecimalRoundTrip(-n);
  }

  lemma NonNegativeRoundTrip(n: nat)
    ensures ParseInt(FormatInt(n)) == Some(n)
  {
    var d := NatToDecimal(n);
    assert '0' <= d[0] <= '9';
    DecimalRoundTrip(n);
  }

  // ---------------------------------------------------------------------
  // Go `int` (64 bits on the supported platforms)
  // ---------------------------------------------------------------------

  const IntModulus: int := 0x1_0000_0000_0000_0000
  const MinInt: int := -0x8000_0000_0000_0000
  const MaxInt: int := 0x7FFF_FFFF_FFFF_FFFF

  newtype GoInt = x: int | -0x8000_0000_0000_0000 <= x <= 0x7FFF_FFFF_FFFF_FFFF

  /** Two's-complement wrap-around of a mathematical integer into `int`. */
  function Wrap(x: int): (r: GoInt)
    ensures (x - r as int) % IntModulus == 0
    ensures MinInt <= x <= MaxInt ==> r as int == x
  {
    ((x - MinInt) % IntModulus + MinInt) as GoInt
  }

  /** The only `int` congruent to `x` modulo 2^64 is `Wrap(x)`. */
  lemma WrapUnique(x: int, y: int)
    requires MinInt <= y <= MaxInt
    requires (x - y) % IntModulus == 0
    ensures Wrap(x) as int == y
  {
    var r := Wrap(x) as int;
    assert (r - y) % IntModulus == 0 by {
      assert (x - r) % IntModulus == 0;
      DivisibleDifference(x - y, x - r);
    }
    DivisibleSmall(r - y);
  }

  lemma DivisibleDifference(a: int, b: int)
    requires a % IntModulus == 0 && b % IntModulus == 0
    ensures (a - b) % IntModulus == 0
  {
    var qa := a / IntModulus;
    var qb := b / IntModulus;
    assert a == qa * IntModulus;
    assert b == qb * IntModulus;
    assert a - b == (qa - qb) * IntModulus;
  }

  lemma DivisibleSmall(d: int)
    requires -IntModulus < d < IntModulus
    requires d % IntModulus == 0
    ensures d == 0
  {
  }
}

=== FILE: legacy_client.dfy ===
/** The older client (`weather_app/client`). It seeds its history with one
    system turn, but the user turn is appended with `:=` inside the input
    loop, which declares a fresh history for that iteration: the seeded
    history never grows and every user turn starts again from the system
    turn alone. Tool schemas are copied as listed. Tool-call arguments are
    decoded into a map value rather than a pointer, which `json.Unmarshal`
    always refuses. Every error ends the client. */
module LegacyClient {
  import opened GoValues
  import opened Protocol
  import opened Descriptors
  import opened ToolLoop

  const SystemPrompt: string := "You are a helpful assistant using tools for weather."

  /** The history the client starts with, and the one every user turn
      starts from. */
  const Seed: seq<Message> := [TextMessage(System, SystemPrompt)]

  /** The error `json.Unmarshal` gives for a non-pointer target. */
  const NonPointerError: string := "json: Unmarshal(non-pointer map[string]interface {})"

  /** Decoding into a non-pointer map. `checkValid` gives the syntax error
      of a text, if it has one. The text is checked for syntax first, so
      malformed text gets its syntax error; well-formed text is then refused
      because the target is not a pointer, whatever its shape. Either way
      nothing is decoded. */
  function NonPointerUnmarshal(checkValid: string -> Option<string>, arguments: string)
    : (r: Result<Arguments>)
    ensures r.Failure?
    ensures checkValid(arguments).None? ==> r.error == NonPointerError
    ensures checkValid(arguments).Some? ==> r.error == checkValid(arguments).value
  {
    match checkValid(arguments)
    case Some(e) => Failure(e)
    case None => Failure(NonPointerError)
  }

  /** The decoder the tool loop of this client uses. */
  function Decoder(checkValid: string -> Option<string>): string -> Result<Arguments>
  {
    arguments => NonPointerUnmarshal(checkValid, arguments)
  }

  /** The effect of one input line other than `exit`: the requests and
      invocations it made, the script left, and the exit if it ends the
      client. Every turn starts from the seed plus the line. */
  datatype LineResult = LineResult(script: seq<ModelReply>, requests: seq<ModelRequest>,
                                   invocations: seq<ToolRequest>, stop: Option<Exit>)

  function HandleLine(line: string, script: seq<ModelReply>, tools: seq<LlmTool>, session: Session,
                      checkValid: string -> Option<string>): (o: LineResult)
    ensures o.stop.Some? ==> !o.stop.value.ReturnedNil?
  {
    var contextHistory := Seed + [TextMessage(Human, line)];
    var turn := Loop(contextHistory, script, tools, None, Decoder(checkValid), session.callTool);
    var stop := match turn.end
      case Answered => None
      case ModelFailed(e) => Some(ReturnedError(PlainError(e)))
      case DecodeFailed(e) => Some(ReturnedError(PlainError(e)))
      case ToolFailed(e) => Some(ReturnedError(PlainError(e)))
      case Crashed(reason) => Some(Panicked(reason))
      case ScriptExhausted => Some(ScriptRanOut);
    LineResult(turn.script, turn.requests, turn.invocations, stop)
  }

  /** The outer loop over the input lines. `Run.history` is the seeded
      history of the outer scope. */
  function Converse(lines: seq<string>, script: seq<ModelReply>, tools: seq<LlmTool>, session: Session,
                    checkValid: string -> Option<string>): (r: Run)
    ensures 0 < r.consumed <= |lines| || (r.consumed == 0 && lines == [])
    ensures r.exit.ReturnedNil? ==> r.consumed == |lines| || ToLower(lines[r.consumed - 1]) == "exit"
    decreases |lines|
  {
    if |lines| == 0 then Run(Seed, [], [], 0, ReturnedNil)
    else if ToLower(lines[0]) == "exit" then Run(Seed, [], [], 1, ReturnedNil)
    else
      var o := HandleLine(lines[0], script, tools, session, checkValid);
      if o.stop.Some? then Run(Seed, o.requests, o.invocations, 1, o.stop.value)
      else
        var rest := Converse(lines[1..], o.script, tools, session, checkValid);
        assert rest.exit.ReturnedNil? && rest.consumed > 0 ==> lines[rest.consumed] == lines[1..][rest.consumed - 1];
        Run(rest.history, o.requests + rest.requests, o.invocations + rest.invocations, rest.consumed + 1, rest.exit)
  }

  /** The two ways to end at once: with no input the client returns nil
      having read nothing, and an `exit` first line returns nil after that
      one line, before any request and with the history as it was. */
  lemma ConverseStopsAtOnce(lines: seq<string>, script: seq<ModelReply>, tools: seq<LlmTool>, session: Session,
                            checkValid: string -> Option<string>)
    ensures lines == [] ==> Converse(lines, script, tools, session, checkValid).exit == ReturnedNil && Converse(lines, script, tools, session, checkValid).consumed == 0
    ensures |lines| > 0 && ToLower(lines[0]) == "exit" ==>
      var r := Converse(lines, script, tools, session, checkValid);
      r.exit == ReturnedNil && r.consumed == 1 && r.requests == [] && r.history == Seed
  {
  }

  /** `StartClient`: startup errors are returned as they are. Once
      started, the i-th request shows the system turn and the i-th line
      alone, offers the tool descriptors copied as listed and sets no token
      cap; no tool is ever invoked. */
  function StartClient(startup: Startup, lines: seq<string>, script: seq<ModelReply>, session: Session,
                       checkValid: string -> Option<string>): (r: Run)
    ensures r.consumed <= |lines|
    ensures !StartsUp(startup) ==> r.exit.ReturnedError? && r.requests == []
    ensures startup.connectError.Some? ==> r.exit == ReturnedError(PlainError(startup.connectError.value))
    ensures StartsUp(startup) ==>
      && r.history == Seed && r.invocations == [] && |r.requests| <= r.consumed
      && forall i :: 0 <= i < |r.requests| ==>
           r.requests[i] == ModelRequest(Seed + [TextMessage(Human, lines[i])], CopyTools(startup.listedTools.value), None)
  {
    if startup.connectError.Some? then
      Run([], [], [], 0, ReturnedError(PlainError(startup.connectError.value)))
    else if startup.listedTools.Failure? then
      Run([], [], [], 0, ReturnedError(PlainError(startup.listedTools.error)))
    else if startup.modelError.Some? then
      Run([], [], [], 0, ReturnedError(PlainError(startup.modelError.value)))
    else
      var tools := CopyTools(startup.listedTools.value);
      EveryRequestStartsAfresh(lines, script, tools, session, checkValid);
      Converse(lines, script, tools, session, checkValid)
  }

  /** With arguments that never decode, a line makes exactly one model
      request, showing the system turn and the line only, and never reaches
      the tool; it ends the client unless the model answers directly. */
  lemma OneRequestPerLine(line: string, script: seq<ModelReply>, tools: seq<LlmTool>, session: Session,
                          checkValid: string -> Option<string>)
    ensures var o := HandleLine(line, script, tools, session, checkValid);
      && |o.requests| <= 1
      && (|o.requests| == 1 <==> |script| > 0)
      && (|o.requests| == 1 ==> o.requests[0] == ModelRequest(Seed + [TextMessage(Human, line)], tools, None))
      && o.invocations == []
      && (o.stop.None? ==> o.script == script[1..])
      && (o.stop.None? <==>
            |script| > 0 && script[0].Generated? && |script[0].choices| > 0 && |script[0].choices[0].toolCalls| == 0)
  {
    var h := Seed + [TextMessage(Human, line)];
    if |script| > 0 {
      var s := Step(h, script[0], Decoder(checkValid), session.callTool);
      assert !s.next.CallModelAgain?;
      assert s.invocation.None?;
    }
  }

  /** What one line leaves for the next: the model replies it did not
      consume, in order. The client reads the next line only after an
      answered turn; a model, decoding or tool error is returned as it is,
      a reply without choices is a panic, and a model with no reply left
      ends it as the script running out. */
  lemma LineOutcome(line: string, script: seq<ModelReply>, tools: seq<LlmTool>, session: Session,
                    checkValid: string -> Option<string>)
    ensures var o := HandleLine(line, script, tools, session, checkValid);
      |o.requests| <= |script| && o.script == script[|o.requests|..]
    ensures var o := HandleLine(line, script, tools, session, checkValid);
      var turn := Loop(Seed + [TextMessage(Human, line)], script, tools, None, Decoder(checkValid), session.callTool);
      && (o.stop.None? <==> turn.end.Answered?)
      && (turn.end.ModelFailed? || turn.end.DecodeFailed? || turn.end.ToolFailed? ==>
            o.stop == Some(ReturnedError(PlainError(turn.end.error))))
      && (turn.end.Crashed? ==> o.stop == Some(Panicked(turn.end.reason)))
      && (turn.end.ScriptExhausted? ==> o.stop == Some(ScriptRanOut))
  {
    LoopConsumesInOrder(Seed + [TextMessage(Human, line)], script, tools, None, Decoder(checkValid), session.callTool);
  }

  /** Every line other than `exit` that does not stop the client hands the
      rest of the input on: the session continues exactly as if it had
      started at the next line, with the model replies this line left. */
  lemma SessionGoesOn(lines: seq<string>, script: seq<ModelReply>, tools: seq<LlmTool>, session: Session,
                      checkValid: string -> Option<string>)
    requires |lines| > 0 && ToLower(lines[0]) != "exit"
    requires HandleLine(lines[0], script, tools, session, checkValid).stop.None?
    ensures var o := HandleLine(lines[0], script, tools, session, checkValid);
      var r := Converse(lines, script, tools, session, checkValid);
      var rest := Converse(lines[1..], o.script, tools, session, checkValid);
      && r.history == rest.history && r.exit == rest.exit && r.consumed == rest.consumed + 1
      && r.requests == o.requests + rest.requests && r.invocations == o.invocations + rest.invocations
  {
  }

  /** Nothing carries over between user turns: the i-th model request
      shows exactly the system turn and the i-th input line; no tool is
      ever invoked; the outer history is never anything but the seed. */
  lemma {:induction false} EveryRequestStartsAfresh(lines: seq<string>, script: seq<ModelReply>,
                                                    tools: seq<LlmTool>, session: Session,
                                                    checkValid: string -> Option<string>)
    ensures var r := Converse(lines, script, tools, session, checkValid);
      && |r.requests| <= r.consumed
      && (forall i :: 0 <= i < |r.requests| ==>
            r.requests[i] == ModelRequest(Seed + [TextMessage(Human, lines[i])], tools, None))
      && r.invocations == []
      && r.history == Seed
    decreases |lines|
  {
    var r := Converse(lines, script, tools, session, checkValid);
    if |lines| > 0 && ToLower(lines[0]) != "exit" {
      var o := HandleLine(lines[0], script, tools, session, checkValid);
      OneRequestPerLine(lines[0], script, tools, session, checkValid);
      if o.stop.None? {
        var rest := Converse(lines[1..], o.script, tools, session, checkValid);
        EveryRequestStartsAfresh(lines[1..], o.script, tools, session, checkValid);
        assert |o.requests| == 1;
        assert r.requests == o.requests + rest.requests;
        forall i | 0 <= i < |r.requests|
          ensures r.requests[i] == ModelRequest(Seed + [TextMessage(Human, lines[i])], tools, None)
        {
          if i > 0 {
            assert r.requests[i] == rest.requests[i - 1];
            assert lines[1..][i - 1] == lines[i];
          }
        }
      }
    }
  }

  /** Every error ends the client: a first line that is not `exit` and is
      met by a model error or by any tool-call proposal makes the client
      return an error after reading that one line, before any tool is
      invoked. A proposal's error is the syntax error of its arguments, or
      the non-pointer refusal when they are well-formed. */
  lemma ErrorsEndTheClient(lines: seq<string>, script: seq<ModelReply>, tools: seq<LlmTool>, session: Session,
                           checkValid: string -> Option<string>)
    requires |lines| > 0 && ToLower(lines[0]) != "exit" && |script| > 0
    requires script[0].ModelError?
      || (|script[0].choices| > 0 && |script[0].choices[0].toolCalls| > 0)
    ensures var r := Converse(lines, script, tools, session, checkValid);
      r.exit.ReturnedError? && r.consumed == 1 && r.invocations == []
    ensures script[0].ModelError? ==>
      Converse(lines, script, tools, session, checkValid).exit == ReturnedError(PlainError(script[0].error))
    ensures script[0].Generated? ==>
      var arguments := script[0].choices[0].toolCalls[0].functionCall.arguments;
      Converse(lines, script, tools, session, checkValid).exit
        == ReturnedError(PlainError(
             if checkValid(arguments).None? then NonPointerError else checkValid(arguments).value))
  {
  }
}

=== FILE: prompts.dfy ===
/** The `/prompt <name> <args...>` command of the current client: split the
    line, find the named prompt among those the server lists, check there
    are enough positional arguments, bind them to the declared argument
    names, fetch the prompt and serialise its first message.

    The binding writes into a map variable that was declared but never
    made, so it panics as soon as the prompt declares one argument; only
    prompts without arguments get past it. */
module Prompts {
  import opened GoValues
  import opened Protocol

  /** The usage hint a one-token command gets. */
  const NotAValidPrompt: string := "not a valid prompt "

  /** Position of the first prompt named `name`, if any. */
  function FindPrompt(prompts: seq<Prompt>, name: string): (r: Option<nat>)
    ensures r.Some? ==>
      (r.value < |prompts| && prompts[r.value].name == name
       && forall j :: 0 <= j < r.value ==> prompts[j].name != name)
    ensures r.None? ==> forall j :: 0 <= j < |prompts| ==> prompts[j].name != name
  {
    if |prompts| == 0 then None
    else if prompts[0].name == name then Some(0)
    else match FindPrompt(prompts[1..], name)
      case None => None
      case Some(k) => Some(k + 1)
  }

  /** The prompt name is the second token; the positional arguments are
      every token after it. */
  function PromptName(tokens: seq<string>): (name: string)
    requires |tokens| >= 2
    ensures tokens[..2] == [tokens[0], name]
  {
    tokens[1]
  }

  function PositionalArgs(tokens: seq<string>): (r: seq<string>)
    requires |tokens| >= 2
    ensures |r| == |tokens| - 2
    ensures forall i :: 0 <= i < |r| ==> r[i] == tokens[i + 2]
    ensures tokens == [tokens[0], PromptName(tokens)] + r
  {
    tokens[2..]
  }

  /** Binding of positional arguments into the never-made `argMap`: the
      first write panics, so a prompt with declared arguments never gets
      a map, and one without arguments gets the nil (empty) map. */
  function BindIntoNilMap(declared: seq<PromptArgument>, positional: seq<string>): (r: Outcome<map<string, string>>)
    requires |positional| >= |declared|
    ensures r.Panic? <==> |declared| > 0
    ensures r.Ok? ==> r.value == map[]
    ensures !r.Err?
  {
    if |declared| == 0 then Ok(map[])
    else Panic("assignment to entry in nil map")
  }

  /** `HandlePrompts`. */
  function HandlePrompts(input: string, session: Session, codecs: Codecs): (r: Outcome<string>)
    ensures r.Err? && !r.error.continuable <==>
      || codecs.split(input).Failure?
      || (codecs.split(input).Success? && |codecs.split(input).value| >= 2 && session.listPrompts.Failure?)
  {
    match codecs.split(input)
    case Failure(e) =>
      Err(PlainError("error while splitting the user input, err: " + e))
    case Success(tokens) =>
      if |tokens| < 2 then
        Err(WrapShouldContinue(NotAValidPrompt))
      else
        var name := PromptName(tokens);
        var positional := PositionalArgs(tokens);
        match session.listPrompts
        case Failure(e) =>
          Err(PlainError("Got err, while listing prompts: " + e))
        case Success(prompts) =>
          match FindPrompt(prompts, name)
          case None =>
            Err(WrapShouldContinue("prompt by name " + name + " does not exists on server "))
          case Some(k) =>
            var target := prompts[k];
            if |positional| < |target.arguments| then
              Err(WrapShouldContinue("length of arguments for prompt " + name + " is not enough to invoke the prompt "))
            else
              match BindIntoNilMap(target.arguments, positional)
              case Panic(reason) => Panic(reason)
              case Err(e) => Err(e)
              case Ok(argMap) =>
                match session.getPrompt(name, argMap)
                case Failure(e) =>
                  Err(WrapShouldContinue("Error while, getting prompt err: " + e + ", "))
                case Success(result) =>
                  if |result.messages| == 0 then Panic("index out of range [0] with length 0")
                  else
                    match codecs.marshal(result.messages[0].content)
                    case Failure(e) =>
                      Err(WrapShouldContinue("Error while, marshalling prompt err: " + e + ", "))
                    case Success(b) => Ok(b)
  }

  /** The validation stage: the three ways a well-split command is refused
      with an error that wraps `ErrShouldContinue`, before any binding. */
  predicate RefusedByValidation(tokens: seq<string>, prompts: seq<Prompt>)
  {
    || |tokens| < 2
    || FindPrompt(prompts, tokens[1]).None?
    || |tokens| - 2 < |prompts[FindPrompt(prompts, tokens[1]).value].arguments|
  }

  /** Validation: once the line splits and the prompts are listed, the
      command is refused with a continuable error in each of the three
      validation cases; past them, a prompt with declared arguments panics.
      Surplus positional arguments are accepted. What happens to a prompt
      without arguments is `ArgumentlessPromptOutcomes`. */
  lemma ValidationCases(input: string, session: Session, codecs: Codecs, tokens: seq<string>, prompts: seq<Prompt>)
    requires codecs.split(input) == Success(tokens)
    requires session.listPrompts == Success(prompts)
    ensures RefusedByValidation(tokens, prompts) ==>
      HandlePrompts(input, session, codecs).Err? && HandlePrompts(input, session, codecs).error.continuable
    ensures !RefusedByValidation(tokens, prompts) ==>
      var target := prompts[FindPrompt(prompts, tokens[1]).value];
      |tokens| - 2 >= |target.arguments| &&
      (|target.arguments| > 0 ==> HandlePrompts(input, session, codecs).Panic?)
  {
  }

  /** A line that splits into fewer than two tokens is refused before the
      prompts are listed: whatever the server would answer, the result is
      the continuable "not a valid prompt" error. */
  lemma TooFewTokensRefused(input: string, session: Session, codecs: Codecs)
    requires codecs.split(input).Success? && |codecs.split(input).value| < 2
    ensures HandlePrompts(input, session, codecs) == Err(WrapShouldContinue(NotAValidPrompt))
    ensures HandlePrompts(input, session, codecs).error.continuable
  {
  }

  /** Only prompts that declare no arguments can be loaded: a successful
      command names a listed prompt with no declared arguments, and the
      server was asked for it with an empty argument map. */
  lemma LoadedOnlyWithoutArguments(input: string, session: Session, codecs: Codecs)
    requires HandlePrompts(input, session, codecs).Ok?
    ensures codecs.split(input).Success? && |codecs.split(input).value| >= 2
    ensures session.listPrompts.Success?
    ensures var tokens := codecs.split(input).value;
      var prompts := session.listPrompts.value;
      exists k :: 0 <= k < |prompts| && prompts[k].name == tokens[1] && prompts[k].arguments == []
        && session.getPrompt(tokens[1], map[]).Success?
  {
    var tokens := codecs.split(input).value;
    var prompts := session.listPrompts.value;
    var k := FindPrompt(prompts, tokens[1]).value;
    assert prompts[k].name == tokens[1];
  }

  /** Any command naming a prompt with declared arguments, given enough of
      them, crashes the client at the binding. */
  lemma DeclaredArgumentsPanic(input: string, session: Session, codecs: Codecs, tokens: seq<string>, prompts: seq<Prompt>, k: nat)
    requires codecs.split(input) == Success(tokens) && |tokens| >= 2
    requires session.listPrompts == Success(prompts)
    requires k < |prompts| && prompts[k].name == tokens[1]
    requires forall j :: 0 <= j < k ==> prompts[j].name != tokens[1]
    requires 0 < |prompts[k].arguments| <= |tokens| - 2
    ensures HandlePrompts(input, session, codecs) == Panic("assignment to entry in nil map")
  {
    assert FindPrompt(prompts, tokens[1]) == Some(k);
  }

  /** A found prompt that declares no arguments is fetched with the nil
      map. A failed fetch and a failed serialisation are continuable
      errors; a result without messages panics at the index; otherwise the
      command yields the serialised content of the first message. */
  lemma ArgumentlessPromptOutcomes(input: string, session: Session, codecs: Codecs, tokens: seq<string>,
                                   prompts: seq<Prompt>, k: nat)
    requires codecs.split(input) == Success(tokens) && |tokens| >= 2
    requires session.listPrompts == Success(prompts)
    requires k < |prompts| && prompts[k].name == tokens[1] && prompts[k].arguments == []
    requires forall j :: 0 <= j < k ==> prompts[j].name != tokens[1]
    ensures var fetched := session.getPrompt(tokens[1], map[]);
      fetched.Failure? ==>
        HandlePrompts(input, session, codecs)
          == Err(WrapShouldContinue("Error while, getting prompt err: " + fetched.error + ", "))
    ensures var fetched := session.getPrompt(tokens[1], map[]);
      fetched.Success? && |fetched.value.messages| == 0 ==>
        HandlePrompts(input, session, codecs) == Panic("index out of range [0] with length 0")
    ensures var fetched := session.getPrompt(tokens[1], map[]);
      fetched.Success? && |fetched.value.messages| > 0 ==>
        var encoded := codecs.marshal(fetched.value.messages[0].content);
        && (encoded.Failure? ==>
              HandlePrompts(input, session, codecs)
                == Err(WrapShouldContinue("Error while, marshalling prompt err: " + encoded.error + ", ")))
        && (encoded.Success? ==> HandlePrompts(input, session, codecs) == Ok(encoded.value))
  {
    assert FindPrompt(prompts, tokens[1]) == Some(k);
  }
}

=== FILE: protocol.dfy ===
/** The data exchanged across the two process boundaries: the Model Context
    Protocol (client <-> tool server) and the chat-model interface
    (client <-> language model). Only the fields the programs read or
    write are kept. */
module Protocol {
  import opened GoValues

  // ---------------------------------------------------------------------
  // JSON values (tool arguments and input schemas)
  // ---------------------------------------------------------------------

  datatype Json =
    | JNull
    | JBool(b: bool)
    | JNumber(n: int)
    | JString(s: string)
    | JArray(items: seq<Json>)
    | JObject(members: seq<(string, Json)>)

  /** Decoded tool-call arguments, `map[string]any`. */
  type Arguments = map<string, Json>

  // ---------------------------------------------------------------------
  // Model Context Protocol
  // ---------------------------------------------------------------------

  /** A tool as listed by `ListTools`; a nil input schema is `None`. */
  datatype McpTool = McpTool(name: string, description: string, inputSchema: Option<Json>)

  /** One content item of a tool or prompt result; only text items are
      read by the clients. */
  datatype Content = TextContent(text: string) | OtherContent(kind: string)

  datatype PromptArgument = PromptArgument(name: string, description: string, required: bool)

  datatype Prompt = Prompt(name: string, description: string, arguments: seq<PromptArgument>)

  datatype PromptMessage = PromptMessage(role: string, content: Content)

  datatype GetPromptResult = GetPromptResult(description: string, messages: seq<PromptMessage>)

  /** The reply of `CallTool`: the content list, or a non-nil error. */
  datatype ToolReply = ToolOk(content: seq<Content>) | ToolErr(error: string)

  /** A `CallTool` request as the client issues it. */
  datatype ToolRequest = ToolRequest(name: string, arguments: Arguments)

  /** The connected client session, reduced to its replies: `ListPrompts`
      answers with a fixed list or error, `GetPrompt` and `CallTool` are
      functions of their request. */
  datatype Session = Session(
    listPrompts: Result<seq<Prompt>>,
    getPrompt: (string, map<string, string>) -> Result<GetPromptResult>,
    callTool: (string, Arguments) -> ToolReply)

  /** A success-or-error reply of a collaborator. */
  datatype Result<+T> = Success(value: T) | Failure(error: string)

  /** The library helpers the client uses on strings: `shlex.Split`,
      `json.Unmarshal` into a `map[string]any` (given a pointer) and
      `json.Marshal` of a content item. */
  datatype Codecs = Codecs(
    split: string -> Result<seq<string>>,
    unmarshal: string -> Result<Arguments>,
    marshal: Content -> Result<string>)

  // ---------------------------------------------------------------------
  // Chat-model interface
  // ---------------------------------------------------------------------

  /** `llms.ChatMessageType`: System, Human, AI and Tool. */
  datatype Role = System | Human | AI | Tool

  datatype FunctionCall = FunctionCall(name: string, arguments: string)

  datatype ToolCall = ToolCall(id: string, callType: string, functionCall: FunctionCall)

  /** The three kinds of content part the clients put in a message. */
  datatype Part =
    | TextPart(text: string)
    | ToolCallPart(call: ToolCall)
    | ToolResponsePart(toolCallId: string, name: string, content: string)

  /** One turn of the conversation history (`llms.MessageContent`). */
  datatype Message = Message(role: Role, parts: seq<Part>)

  datatype FunctionDefinition = FunctionDefinition(name: string, description: string, parameters: Option<Json>)

  /** A tool as offered to the model (`llms.Tool`). */
  datatype LlmTool = LlmTool(toolType: string, definition: FunctionDefinition)

  datatype Choice = Choice(content: string, toolCalls: seq<ToolCall>)

  /** One reply of `GenerateContent`: its choices, or an error. */
  datatype ModelReply = Generated(choices: seq<Choice>) | ModelError(error: string)

  /** One `GenerateContent` request: the history passed, the tools offered
      and the `WithMaxTokens` option, if any. */
  datatype ModelRequest = ModelRequest(context: seq<Message>, tools: seq<LlmTool>, maxTokens: Option<nat>)

  /** `llms.TextParts(role, text)`. */
  function TextMessage(role: Role, text: string): (m: Message)
    ensures m.role == role && |m.parts| == 1 && m.parts[0].TextPart? && m.parts[0].text == text
    ensures role == AI <==> IsAnswer(m)
  {
    Message(role, [TextPart(text)])
  }

  /** The assistant turn that records a tool-call intent: it copies the
      call's id, function name and arguments and sets the type to
      "function". */
  function IntentMessage(call: ToolCall): (m: Message)
    ensures m.role == AI && |m.parts| == 1 && m.parts[0].ToolCallPart?
    ensures m.parts[0].call.id == call.id && m.parts[0].call.functionCall == call.functionCall
    ensures m.parts[0].call.callType == "function"
  {
    Message(AI, [ToolCallPart(ToolCall(call.id, "function", FunctionCall(call.functionCall.name, call.functionCall.arguments)))])
  }

  /** The tool turn answering `call` with `content`: it answers the intent
      recorded for the same call, and carries `content`. */
  function ToolResponseMessage(call: ToolCall, content: string): (m: Message)
    ensures IsToolResponse(m) && m.parts[0].content == content
    ensures Answers(m, IntentMessage(call))
  {
    Message(Tool, [ToolResponsePart(call.id, call.functionCall.name, content)])
  }

  predicate IsIntent(m: Message)
  {
    m.role == AI && |m.parts| == 1 && m.parts[0].ToolCallPart?
  }

  predicate IsToolResponse(m: Message)
  {
    m.role == Tool && |m.parts| == 1 && m.parts[0].ToolResponsePart?
  }

  predicate IsAnswer(m: Message)
  {
    m.role == AI && |m.parts| == 1 && m.parts[0].TextPart?
  }

  /** `response` is the tool turn for the intent `intent`: same
      correlation id and same function name. */
  predicate Answers(response: Message, intent: Message)
  {
    && IsToolResponse(response) && IsIntent(intent)
    && response.parts[0].toolCallId == intent.parts[0].call.id
    && response.parts[0].name == intent.parts[0].call.functionCall.name
  }

  /** The correlation invariant of a history: every tool turn directly
      follows the intent it answers. */
  predicate Correlated(h: seq<Message>)
  {
    forall i :: 0 <= i < |h| && IsToolResponse(h[i]) ==> 0 < i && Answers(h[i], h[i - 1])
  }

  /** No user turn among `h`. */
  predicate NoHumanTurns(h: seq<Message>)
  {
    forall i :: 0 <= i < |h| ==> h[i].role != Human
  }

  /** The number of turns of role `role` in `h`. */
  function RoleCount(h: seq<Message>, role: Role): (n: nat)
    ensures n <= |h|
    ensures n == 0 <==> forall i :: 0 <= i < |h| ==> h[i].role != role
  {
    if |h| == 0 then 0
    else RoleCount(h[..|h| - 1], role) + (if h[|h| - 1].role == role then 1 else 0)
  }

  lemma {:induction false} RoleCountAppend(a: seq<Message>, b: seq<Message>, role: Role)
    ensures RoleCount(a + b, role) == RoleCount(a, role) + RoleCount(b, role)
    decreases |b|
  {
    if |b| > 0 {
      var ab := a + b;
      assert ab[..|ab| - 1] == a + b[..|b| - 1];
      RoleCountAppend(a, b[..|b| - 1], role);
    } else {
      assert a + b == a;
    }
  }

  /** The texts of the user turns of `h`, in order. */
  function UserTexts(h: seq<Message>): seq<string>
  {
    if |h| == 0 then []
    else
      (if h[0].role == Human && |h[0].parts| > 0 && h[0].parts[0].TextPart? then [h[0].parts[0].text] else [])
        + UserTexts(h[1..])
  }

  lemma {:induction false} UserTextsAppend(a: seq<Message>, b: seq<Message>)
    ensures UserTexts(a + b) == UserTexts(a) + UserTexts(b)
    decreases |a|
  {
    if |a| == 0 {
      assert a + b == b;
    } else {
      assert (a + b)[1..] == a[1..] + b;
      UserTextsAppend(a[1..], b);
    }
  }

  lemma {:induction false} UserTextsWithoutHumanTurns(h: seq<Message>)
    requires RoleCount(h, Human) == 0
    ensures UserTexts(h) == []
    decreases |h|
  {
    if |h| > 0 {
      assert forall i :: 0 <= i < |h[1..]| ==> h[1..][i] == h[i + 1];
      UserTextsWithoutHumanTurns(h[1..]);
    }
  }

  lemma CorrelatedAppend(a: seq<Message>, b: seq<Message>)
    requires Correlated(a) && Correlated(b)
    requires |b| > 0 ==> !IsToolResponse(b[0])
    ensures Correlated(a + b)
  {
    var ab := a + b;
    forall i | 0 <= i < |ab| && IsToolResponse(ab[i])
      ensures 0 < i && Answers(ab[i], ab[i - 1])
    {
      if i >= |a| {
        assert ab[i] == b[i - |a|];
      }
    }
  }

  // Results of a whole client session, shared by both clients.

  /** How `StartClient` ends. `ScriptRanOut` is the model script running
      dry, which only the model has. */
  datatype Exit = ReturnedNil | ReturnedError(error: Error) | Panicked(reason: string) | ScriptRanOut

  /** A session: the final history, every model request and tool
      invocation in order, the number of input lines read, and the exit. */
  datatype Run = Run(
    history: seq<Message>,
    requests: seq<ModelRequest>,
    invocations: seq<ToolRequest>,
    consumed: nat,
    exit: Exit)

  /** What happens before the first line is read: connecting to the tool
      server, listing its tools and creating the model client. */
  datatype Startup = Startup(connectError: Option<string>, listedTools: Result<seq<McpTool>>, modelError: Option<string>)

  /** Nothing goes wrong before the first line is read. */
  predicate StartsUp(startup: Startup)
  {
    startup.connectError.None? && startup.listedTools.Success? && startup.modelError.None?
  }
}

=== FILE: quoting.dfy ===
/** Go's `%q` verb on a string (`strconv.Quote`): the text between double
    quotes, with the quote, the backslash and the ASCII control characters
    escaped. Reading a quoted string back recovers the original, which is
    what lets a reader of a rendered template find the inserted values. */
module GoQuote {
  import opened GoValues

  const LowerHex: string := "0123456789abcdef"

  /** The escape of one rune: printable ASCII other than the quote and the
      backslash is kept, those two are escaped by a backslash, and ASCII
      control characters are always escaped. Every non-ASCII rune is kept
      as it is. */
  function EscapeRune(c: char): (e: string)
    ensures |e| > 0
    ensures e[0] == '\\' || (e == [c] && c != '"' && c != '\\')
    ensures ' ' <= c <= '~' && c != '"' && c != '\\' ==> e == [c]
    ensures c == '"' || c == '\\' ==> e == ['\\', c]
    ensures c < ' ' || c == '\U{7F}' ==> |e| > 1 && e[0] == '\\'
    ensures c > '\U{7F}' ==> e == [c]
  {
    if c == '"' then "\\\""
    else if c == '\\' then "\\\\"
    else if c == '\U{7}' then "\\a"
    else if c == '\U{8}' then "\\b"
    else if c == '\U{C}' then "\\f"
    else if c == '\n' then "\\n"
    else if c == '\r' then "\\r"
    else if c == '\t' then "\\t"
    else if c == '\U{B}' then "\\v"
    else if c < ' ' || c == '\U{7F}' then "\\x" + [LowerHex[c as int / 16], LowerHex[c as int % 16]]
    else [c]
  }

  function Escape(s: string): string
  {
    if |s| == 0 then [] else EscapeRune(s[0]) + Escape(s[1..])
  }

  /** `strconv.Quote`: the quoted text reads back as `s`, and its closing
      quote ends it. */
  function Quote(s: string): (q: string)
    ensures |q| >= 2 && q[0] == '"' && q[|q| - 1] == '"'
    ensures Unquote(q) == Some((s, ""))
  {
    var q := "\"" + Escape(s) + "\"";
    EscapeReadsBack(s, "");
    assert q[1..] == Escape(s) + "\"" + "";
    q
  }

  function HexValue(c: char): Option<nat>
  {
    if '0' <= c <= '9' then Some(c as int - '0' as int)
    else if 'a' <= c <= 'f' then Some(c as int - 'a' as int + 10)
    else None
  }

  /** The rune a two-character escape `\x` stands for, if any. */
  function SimpleEscape(c: char): Option<char>
  {
    if c == '"' then Some('"')
    else if c == '\\' then Some('\\')
    else if c == 'a' then Some('\U{7}')
    else if c == 'b' then Some('\U{8}')
    else if c == 'f' then Some('\U{C}')
    else if c == 'n' then Some('\n')
    else if c == 'r' then Some('\r')
    else if c == 't' then Some('\t')
    else if c == 'v' then Some('\U{B}')
    else None
  }

  /** Reads the body of a quoted string up to its closing quote; returns
      the unescaped text and what follows the closing quote. */
  function Unescape(t: string): (r: Option<(string, string)>)
    ensures r.Some? ==> |r.value.1| < |t|
    decreases |t|
  {
    if |t| == 0 then None
    else if t[0] == '"' then Some(("", t[1..]))
    else if t[0] != '\\' then
      match Unescape(t[1..])
      case None => None
      case Some((s, rest)) => Some(([t[0]] + s, rest))
    else if |t| >= 2 && SimpleEscape(t[1]).Some? then
      match Unescape(t[2..])
      case None => None
      case Some((s, rest)) => Some(([SimpleEscape(t[1]).value] + s, rest))
    else if |t| >= 4 && t[1] == 'x' && HexValue(t[2]).Some? && HexValue(t[3]).Some? then
      match Unescape(t[4..])
      case None => None
      case Some((s, rest)) => Some(([(HexValue(t[2]).value * 16 + HexValue(t[3]).value) as char] + s, rest))
    else None
  }

  /** Reads one quoted string at the start of `t`. */
  function Unquote(t: string): (r: Option<(string, string)>)
    ensures r.Some? ==> |r.value.1| < |t|
  {
    if |t| > 0 && t[0] == '"' then Unescape(t[1..]) else None
  }

  /** Each escape is one of the three forms `Unescape` reads: the rune
      itself, a backslash and a letter, or `\x` and two hex digits, and
      each form stands for the escaped rune. */
  lemma EscapeRuneShape(c: char)
    ensures var e := EscapeRune(c);
      || (e == [c] && c != '"' && c != '\\')
      || (|e| == 2 && e[0] == '\\' && SimpleEscape(e[1]) == Some(c))
      || (&& |e| == 4 && e[0] == '\\' && e[1] == 'x' && SimpleEscape('x').None?
          && HexValue(e[2]).Some? && HexValue(e[3]).Some?
          && (HexValue(e[2]).value * 16 + HexValue(e[3]).value) as char == c)
  {
    if c < ' ' || c == '\U{7F}' {
      var n := c as int;
      if SimpleEscape(EscapeRune(c)[1]) != Some(c) {
        assert HexValue(LowerHex[n / 16]) == Some(n / 16);
        assert HexValue(LowerHex[n % 16]) == Some(n % 16);
      }
    }
  }

  lemma EscapeRuneReadsBack(c: char, tail: string)
    requires Unescape(tail).Some?
    ensures Unescape(EscapeRune(c) + tail) == Some(([c] + Unescape(tail).value.0, Unescape(tail).value.1))
  {
    var e := EscapeRune(c);
    var t := e + tail;
    EscapeRuneShape(c);
    if |e| == 1 {
      assert t[1..] == tail;
    } else if |e| == 2 {
      assert t[2..] == tail;
    } else {
      assert t[4..] == tail;
    }
  }

  lemma {:induction false} EscapeReadsBack(s: string, rest: string)
    ensures Unescape(Escape(s) + "\"" + rest) == Some((s, rest))
    decreases |s|
  {
    if |s| == 0 {
      assert Escape(s) + "\"" + rest == "\"" + rest;
    } else {
      var tail := Escape(s[1..]) + "\"" + rest;
      EscapeReadsBack(s[1..], rest);
      EscapeRuneReadsBack(s[0], tail);
      assert Escape(s) + "\"" + rest == EscapeRune(s[0]) + tail;
      assert [s[0]] + s[1..] == s;
    }
  }

  /** `%q` loses nothing: a quoted string, followed by anything, reads back
      as itself and leaves exactly what followed. */
  lemma QuoteRoundTrip(s: string, rest: string)
    ensures Unquote(Quote(s) + rest) == Some((s, rest))
  {
    var t := Quote(s) + rest;
    assert t[1..] == Escape(s) + "\"" + rest;
    EscapeReadsBack(s, rest);
  }
}

=== FILE: scenarios.dfy ===
/** End-to-end consequences that cross module boundaries: the two clients
    on the same conversation, a complete tool-calling turn, and the
    server's own prompt as seen by the current client's prompt command. */
module Scenarios {
  import opened GoValues
  import opened Protocol
  import opened Prompts
  import opened ToolLoop
  import Client
  import LegacyClient
  import WeatherServer

  /** A model reply that answers with `text` and proposes no tool. */
  function Answer(text: string): ModelReply
  {
    Generated([Choice(text, [])])
  }

  /** A model reply that proposes exactly `call`. */
  function Propose(call: ToolCall): ModelReply
  {
    Generated([Choice("", [call])])
  }

  /** A direct answer ends the turn after one request, appending the
      answer. */
  lemma LoopOnAnswer(h: seq<Message>, text: string, more: seq<ModelReply>, tools: seq<LlmTool>,
      maxTokens: Option<nat>, decode: string -> Result<Arguments>, callTool: (string, Arguments) -> ToolReply)
    ensures Loop(h, [Answer(text)] + more, tools, maxTokens, decode, callTool)
         == TurnResult(h + [TextMessage(AI, text)], more, [ModelRequest(h, tools, maxTokens)], [], Answered)
  {
    assert ([Answer(text)] + more)[1..] == more;
  }

  /** A proposed tool call that decodes and succeeds appends the intent
      and the tool turn and asks the model again. */
  lemma LoopOnToolCall(h: seq<Message>, call: ToolCall, args: Arguments, content: seq<Content>,
      more: seq<ModelReply>, tools: seq<LlmTool>,
      maxTokens: Option<nat>, decode: string -> Result<Arguments>, callTool: (string, Arguments) -> ToolReply)
    requires decode(call.functionCall.arguments) == Success(args)
    requires callTool(call.functionCall.name, args) == ToolOk(content)
    ensures var h' := h + [IntentMessage(call), ToolResponseMessage(call, TextOf(content))];
      var rest := Loop(h', more, tools, maxTokens, decode, callTool);
      Loop(h, [Propose(call)] + more, tools, maxTokens, decode, callTool)
      == TurnResult(rest.history, rest.script, [ModelRequest(h, tools, maxTokens)] + rest.requests,
                    [ToolRequest(call.functionCall.name, args)] + rest.invocations, rest.end)
  {
    assert ([Propose(call)] + more)[1..] == more;
    ToolRoundTrip(h, call, "", args, content, decode, callTool);
  }

  /** A sent line answered directly appends the line and the answer. */
  lemma LineAnsweredDirectly(line: string, h: seq<Message>, text: string, more: seq<ModelReply>,
      tools: seq<LlmTool>, session: Session, codecs: Codecs)
    requires Client.Dispatch(line, session, codecs) == Client.Send(line)
    ensures Client.HandleLine(line, h, [Answer(text)] + more, tools, session, codecs)
         == Client.LineResult(h + [TextMessage(Human, line), TextMessage(AI, text)], more,
                              [ModelRequest(h + [TextMessage(Human, line)], tools, Some(Client.MaxTokens))], [], None)
  {
    var start := h + [TextMessage(Human, line)];
    LoopOnAnswer(start, text, more, tools, Some(Client.MaxTokens), codecs.unmarshal, session.callTool);
    assert start + [TextMessage(AI, text)] == h + [TextMessage(Human, line), TextMessage(AI, text)];
  }

  /** Two ordinary lines, each answered directly. The current client shows
      the model the first exchange again with the second line. */
  lemma CurrentClientCarriesHistory(first: string, second: string, x: string, y: string,
      tools: seq<LlmTool>, session: Session, codecs: Codecs)
    requires Client.Dispatch(first, session, codecs) == Client.Send(first)
    requires Client.Dispatch(second, session, codecs) == Client.Send(second)
    ensures var r := Client.Converse([first, second], [], [Answer(x), Answer(y)], tools, session, codecs);
      && |r.requests| == 2
      && r.requests[1].context == [TextMessage(Human, first), TextMessage(AI, x), TextMessage(Human, second)]
      && r.history == [TextMessage(Human, first), TextMessage(AI, x), TextMessage(Human, second), TextMessage(AI, y)]
  {
    var script := [Answer(x), Answer(y)];
    var h1 := [TextMessage(Human, first), TextMessage(AI, x)];
    assert script == [Answer(x)] + [Answer(y)] && [Answer(y)] == [Answer(y)] + [];
    LineAnsweredDirectly(first, [], x, [Answer(y)], tools, session, codecs);
    LineAnsweredDirectly(second, h1, y, [], tools, session, codecs);
    var lines := [first, second];
    assert lines[1..] == [second] && [second][1..] == [];
    Client.SessionGoesOn(lines, [], script, tools, session, codecs);
    Client.SessionGoesOn([second], h1, [Answer(y)], tools, session, codecs);
  }

  /** The same two lines in the older client: the second request shows
      only the system turn and the second line. */
  lemma LegacyClientForgetsHistory(first: string, second: string, x: string, y: string,
      tools: seq<LlmTool>, session: Session, checkValid: string -> Option<string>)
    requires ToLower(first) != "exit" && ToLower(second) != "exit"
    ensures var r := LegacyClient.Converse([first, second], [Answer(x), Answer(y)], tools, session, checkValid);
      && |r.requests| == 2
      && r.requests[1].context == LegacyClient.Seed + [TextMessage(Human, second)]
      && r.history == LegacyClient.Seed
  {
    var script := [Answer(x), Answer(y)];
    var lines := [first, second];
    assert lines[1..] == [second] && lines[1..][1..] == [];
    assert script == [Answer(x)] + [Answer(y)] && [Answer(y)] == [Answer(y)] + [];
    LegacyClient.EveryRequestStartsAfresh(lines, script, tools, session, checkValid);
    LoopOnAnswer(LegacyClient.Seed + [TextMessage(Human, first)], x, [Answer(y)], tools, None,
                 LegacyClient.Decoder(checkValid), session.callTool);
    LoopOnAnswer(LegacyClient.Seed + [TextMessage(Human, second)], y, [], tools, None,
                 LegacyClient.Decoder(checkValid), session.callTool);
  }

  /** The turn the weather agent is built for, in the current client: the
      model asks for two tool calls in a row and then answers. The tool is
      invoked twice, the model is asked three times, and the history holds
      the user line, two intent/result pairs and the answer, each result
      directly after its intent. */
  lemma TwoToolCallsThenAnswer(line: string, c1: ToolCall, c2: ToolCall, a1: Arguments, a2: Arguments,
      out1: seq<Content>, out2: seq<Content>, answer: string,
      tools: seq<LlmTool>, session: Session, codecs: Codecs)
    requires Client.Dispatch(line, session, codecs) == Client.Send(line)
    requires codecs.unmarshal(c1.functionCall.arguments) == Success(a1)
    requires codecs.unmarshal(c2.functionCall.arguments) == Success(a2)
    requires session.callTool(c1.functionCall.name, a1) == ToolOk(out1)
    requires session.callTool(c2.functionCall.name, a2) == ToolOk(out2)
    ensures var r := Client.Converse([line], [], [Propose(c1), Propose(c2), Answer(answer)], tools, session, codecs);
      && r.history == [TextMessage(Human, line),
                       IntentMessage(c1), ToolResponseMessage(c1, TextOf(out1)),
                       IntentMessage(c2), ToolResponseMessage(c2, TextOf(out2)),
                       TextMessage(AI, answer)]
      && r.invocations == [ToolRequest(c1.functionCall.name, a1), ToolRequest(c2.functionCall.name, a2)]
      && |r.requests| == 3
      && r.exit == ReturnedNil && r.consumed == 1
  {
    var h0 := [TextMessage(Human, line)];
    TwoToolCallsTurn(h0, c1, c2, a1, a2, out1, out2, answer, tools, Some(Client.MaxTokens),
                     codecs.unmarshal, session.callTool);
    assert [] + [TextMessage(Human, line)] == h0;
    var lines := [line];
    assert lines[1..] == [];
  }

  /** The turn of the scenario above, inside the loop: two tool round trips
      and the answer, with one request per reply. */
  lemma TwoToolCallsTurn(h0: seq<Message>, c1: ToolCall, c2: ToolCall, a1: Arguments, a2: Arguments,
      out1: seq<Content>, out2: seq<Content>, answer: string, tools: seq<LlmTool>,
      maxTokens: Option<nat>, decode: string -> Result<Arguments>, callTool: (string, Arguments) -> ToolReply)
    requires decode(c1.functionCall.arguments) == Success(a1)
    requires decode(c2.functionCall.arguments) == Success(a2)
    requires callTool(c1.functionCall.name, a1) == ToolOk(out1)
    requires callTool(c2.functionCall.name, a2) == ToolOk(out2)
    ensures var r := Loop(h0, [Propose(c1), Propose(c2), Answer(answer)], tools, maxTokens, decode, callTool);
      && r.history == h0 + [IntentMessage(c1), ToolResponseMessage(c1, TextOf(out1)),
                            IntentMessage(c2), ToolResponseMessage(c2, TextOf(out2)),
                            TextMessage(AI, answer)]
      && r.invocations == [ToolRequest(c1.functionCall.name, a1), ToolRequest(c2.functionCall.name, a2)]
      && |r.requests| == 3 && r.script == [] && r.end == Answered
  {
    var h1 := h0 + [IntentMessage(c1), ToolResponseMessage(c1, TextOf(out1))];
    var h2 := h1 + [IntentMessage(c2), ToolResponseMessage(c2, TextOf(out2))];
    LoopOnAnswer(h2, answer, [], tools, maxTokens, decode, callTool);
    LoopOnToolCall(h1, c2, a2, out2, [Answer(answer)], tools, maxTokens, decode, callTool);
    LoopOnToolCall(h0, c1, a1, out1, [Propose(c2), Answer(answer)], tools, maxTokens, decode, callTool);
    assert [Answer(answer)] == [Answer(answer)] + [];
    assert [Propose(c2), Answer(answer)] == [Propose(c2)] + [Answer(answer)];
    assert [Propose(c1), Propose(c2), Answer(answer)] == [Propose(c1)] + [Propose(c2), Answer(answer)];
  }

  /** The server's `compare_weather` prompt declares two arguments, so the
      current client can never load it: named with two or more values the
      command panics in the binding, named with fewer it is refused with a
      continuable error. */
  lemma ComparePromptNeverLoads(line: string, tokens: seq<string>, others: seq<Prompt>,
                                session: Session, codecs: Codecs)
    requires codecs.split(line) == Success(tokens) && |tokens| >= 2 && tokens[1] == "compare_weather"
    requires session.listPrompts == Success([WeatherServer.ComparePrompt] + others)
    ensures |tokens| >= 4 ==> HandlePrompts(line, session, codecs) == Panic("assignment to entry in nil map")
    ensures |tokens| < 4 ==>
      HandlePrompts(line, session, codecs).Err? && HandlePrompts(line, session, codecs).error.continuable
  {
    var prompts := [WeatherServer.ComparePrompt] + others;
    assert prompts[0].name == tokens[1];
    assert FindPrompt(prompts, tokens[1]) == Some(0);
    if |tokens| >= 4 {
      DeclaredArgumentsPanic(line, session, codecs, tokens, prompts, 0);
    }
  }
}

=== FILE: subtract.dfy ===
/** The `subtract` tool of the minimal example server: Go `int` operands
    and result, so the difference wraps around modulo 2^64. */
module SubtractTool {
  import opened GoValues

  datatype InputOutput = InputOutput(a: GoInt, b: GoInt, result: GoInt)

  /** The protocol-level result of a tool handler; the handler never sets
      one. */
  datatype CallToolResult = CallToolResult(text: string)

  /** The three returns of the handler: protocol result, typed output and
      error. */
  datatype SubtractReply = SubtractReply(callResult: Option<CallToolResult>, output: InputOutput, error: Option<Error>)

  /** `Subtract`: copies both operands into the output and stores their
      wrapped difference; the incoming `Result` is not read. */
  function Subtract(input: InputOutput): (r: SubtractReply)
    ensures r.callResult.None? && r.error.None?
    ensures r.output.a == input.a && r.output.b == input.b
    ensures (input.a as int - input.b as int - r.output.result as int) % IntModulus == 0
    ensures MinInt <= input.a as int - input.b as int <= MaxInt ==>
      r.output.result as int == input.a as int - input.b as int
  {
    SubtractReply(None, InputOutput(input.a, input.b, Wrap(input.a as int - input.b as int)), None)
  }

  /** The incoming `Result` field makes no difference. */
  lemma ResultIgnored(a: GoInt, b: GoInt, x: GoInt, y: GoInt)
    ensures Subtract(InputOutput(a, b, x)) == Subtract(InputOutput(a, b, y))
  {
  }

  /** Adding `B` back to the wrapped difference, with the same wrap-around,
      gives `A` again. */
  lemma AddBackGivesA(input: InputOutput)
    ensures var out := Subtract(input).output;
      Wrap(out.result as int + out.b as int) == out.a
  {
    var out := Subtract(input).output;
    var a, b, d := input.a as int, input.b as int, out.result as int;
    assert (d + b - a) % IntModulus == 0 by {
      assert (a - b - d) % IntModulus == 0;
      DivisibleDifference(0, a - b - d);
    }
    WrapUnique(d + b, a);
  }

  /** The difference wraps: the smallest `int` minus one is the largest. */
  lemma WrapsAtTheBottom()
    ensures Subtract(InputOutput(MinInt as GoInt, 1, 0)).output.result as int == MaxInt
  {
    WrapUnique(MinInt - 1, MaxInt);
  }
}

=== FILE: tool_loop.dfy ===
/** The tool-calling loop both clients run for one user turn: call the
    model with the whole history; if its first choice proposes tool calls,
    act on the first one only (record the intent, decode the arguments,
    call the tool, append the tool's text as a tool turn) and call the
    model again; otherwise append the answer and stop.

    The model is a script: each `GenerateContent` call consumes the next
    reply. Every request is recorded, so what the model was shown is part
    of the result. The argument decoder is a parameter because the two
    clients decode differently. */
module ToolLoop {
  import opened GoValues
  import opened Protocol

  /** How a turn's loop ended. */
  datatype TurnEnd =
    | Answered                      // the answer was appended
    | ModelFailed(error: string)    // GenerateContent returned an error
    | DecodeFailed(error: string)   // the tool-call arguments did not decode
    | ToolFailed(error: string)     // CallTool returned an error
    | Crashed(reason: string)       // the reply had no choices
    | ScriptExhausted               // the scripted model has no reply left

  /** What one model call leads to. */
  datatype Next = CallModelAgain | EndTurn(end: TurnEnd)

  datatype StepResult = StepResult(history: seq<Message>, invocation: Option<ToolRequest>, next: Next)

  datatype TurnResult = TurnResult(
    history: seq<Message>,
    script: seq<ModelReply>,
    requests: seq<ModelRequest>,
    invocations: seq<ToolRequest>,
    end: TurnEnd)

  /** The in-order concatenation of the text items of a tool result; other
      items are skipped. */
  function TextOf(content: seq<Content>): (text: string)
    ensures (forall i :: 0 <= i < |content| ==> !content[i].TextContent?) ==> text == ""
  {
    if |content| == 0 then ""
    else (if content[0].TextContent? then content[0].text else "") + TextOf(content[1..])
  }

  lemma {:induction false} TextOfAppend(a: seq<Content>, b: seq<Content>)
    ensures TextOf(a + b) == TextOf(a) + TextOf(b)
    decreases |a|
  {
    if |a| == 0 {
      assert a + b == b;
    } else {
      assert (a + b)[1..] == a[1..] + b;
      TextOfAppend(a[1..], b);
    }
  }

  /** Non-text items contribute nothing; a text item contributes its
      text. */
  lemma TextOfSingle(c: Content)
    ensures TextOf([c]) == (if c.TextContent? then c.text else "")
  {
  }

  /** Acting on one proposed tool call: record the intent, decode the
      arguments, call the tool and append its text as the answering tool
      turn. */
  function ToolStep(h: seq<Message>, call: ToolCall, decode: string -> Result<Arguments>,
                    callTool: (string, Arguments) -> ToolReply): (r: StepResult)
    ensures |r.history| == |h| + 1 || |r.history| == |h| + 2
    ensures r.history[..|h| + 1] == h + [IntentMessage(call)]
    ensures r.next.CallModelAgain? <==> |r.history| == |h| + 2
    ensures r.next.CallModelAgain? ==> Answers(r.history[|h| + 1], r.history[|h|])
    ensures r.next.EndTurn? ==> r.next.end.DecodeFailed? || r.next.end.ToolFailed?
    ensures r.invocation.Some? <==> r.next.CallModelAgain? || (r.next.EndTurn? && r.next.end.ToolFailed?)
  {
    var h1 := h + [IntentMessage(call)];
    match decode(call.functionCall.arguments)
    case Failure(e) => StepResult(h1, None, EndTurn(DecodeFailed(e)))
    case Success(args) =>
      var request := ToolRequest(call.functionCall.name, args);
      match callTool(request.name, request.arguments)
      case ToolErr(e) => StepResult(h1, Some(request), EndTurn(ToolFailed(e)))
      case ToolOk(content) =>
        StepResult(h1 + [ToolResponseMessage(call, TextOf(content))], Some(request), CallModelAgain)
  }

  /** What one model reply does to the history: only the first choice is
      read, and of its tool calls only the first. */
  function Step(h: seq<Message>, reply: ModelReply, decode: string -> Result<Arguments>,
                callTool: (string, Arguments) -> ToolReply): (r: StepResult)
    ensures h <= r.history && |r.history| <= |h| + 2
    ensures r.next == EndTurn(Answered) <==> |r.history| == |h| + 1 && IsAnswer(r.history[|h|])
    ensures r.next.CallModelAgain? ==>
      |r.history| == |h| + 2 && IsIntent(r.history[|h|]) && IsToolResponse(r.history[|h| + 1])
    ensures r.next.EndTurn? && (r.next.end.DecodeFailed? || r.next.end.ToolFailed?) ==>
      |r.history| == |h| + 1 && IsIntent(r.history[|h|])
    ensures r.next.EndTurn? && (r.next.end.ModelFailed? || r.next.end.Crashed?) ==> r.history == h
    ensures !r.next.EndTurn? || !r.next.end.ScriptExhausted?
    ensures r.invocation.Some? <==> r.next.CallModelAgain? || (r.next.EndTurn? && r.next.end.ToolFailed?)
    ensures reply.Generated? && |reply.choices| > 0 && |reply.choices[0].toolCalls| == 0 ==>
      r.history == h + [TextMessage(AI, reply.choices[0].content)]
  {
    match reply
    case ModelError(e) => StepResult(h, None, EndTurn(ModelFailed(e)))
    case Generated(choices) =>
      if |choices| == 0 then StepResult(h, None, EndTurn(Crashed("index out of range [0] with length 0")))
      else if |choices[0].toolCalls| > 0 then
        var r := ToolStep(h, choices[0].toolCalls[0], decode, callTool);
        assert r.history == r.history[..|h| + 1] + r.history[|h| + 1..];
        r
      else
        StepResult(h + [TextMessage(AI, choices[0].content)], None, EndTurn(Answered))
  }

  /** A step keeps the correlation invariant: the tool turn it may append
      directly follows the intent it answers. */
  lemma StepKeepsCorrelation(h: seq<Message>, reply: ModelReply, decode: string -> Result<Arguments>,
                             callTool: (string, Arguments) -> ToolReply)
    requires Correlated(h)
    ensures Correlated(Step(h, reply, decode, callTool).history)
  {
    if reply.Generated? && |reply.choices| > 0 {
      if |reply.choices[0].toolCalls| > 0 {
        var r := ToolStep(h, reply.choices[0].toolCalls[0], decode, callTool);
        CorrelatedAfterToolStep(h, r.history);
      } else {
        CorrelatedAppend(h, [TextMessage(AI, reply.choices[0].content)]);
      }
    }
  }

  /** Appending an intent, and possibly the tool turn answering it, keeps
      the correlation invariant. */
  lemma CorrelatedAfterToolStep(h: seq<Message>, h': seq<Message>)
    requires |h'| == |h| + 1 || |h'| == |h| + 2
    requires IsIntent(h'[|h|]) && h'[..|h|] == h
    requires |h'| == |h| + 2 ==> Answers(h'[|h| + 1], h'[|h|])
    ensures Correlated(h) ==> Correlated(h')
  {
    if Correlated(h) {
      forall i | 0 <= i < |h'| && IsToolResponse(h'[i])
        ensures 0 < i && Answers(h'[i], h'[i - 1])
      {
        if i < |h| {
          assert h'[i] == h[i];
          if i > 0 {
            assert h'[i - 1] == h[i - 1];
          }
        }
      }
    }
  }

  /** The loop, one model reply per iteration until the turn ends. */
  function Loop(h: seq<Message>, script: seq<ModelReply>, tools: seq<LlmTool>, maxTokens: Option<nat>,
                decode: string -> Result<Arguments>, callTool: (string, Arguments) -> ToolReply): (r: TurnResult)
    ensures h <= r.history
    ensures |r.script| <= |script| && |r.requests| == |script| - |r.script|
    ensures r.end.ScriptExhausted? ==> r.script == []
    ensures r.end.DecodeFailed? || r.end.ToolFailed? ==> |r.history| > |h| && IsIntent(r.history[|r.history| - 1])
    decreases |script|
  {
    if |script| == 0 then TurnResult(h, [], [], [], ScriptExhausted)
    else
      var request := ModelRequest(h, tools, maxTokens);
      var s := Step(h, script[0], decode, callTool);
      var invoked := if s.invocation.Some? then [s.invocation.value] else [];
      match s.next
      case EndTurn(end) => TurnResult(s.history, script[1..], [request], invoked, end)
      case CallModelAgain =>
        var rest := Loop(s.history, script[1..], tools, maxTokens, decode, callTool);
        TurnResult(rest.history, rest.script, [request] + rest.requests, invoked + rest.invocations, rest.end)
  }

  /** The loop consumes model replies in order, one per request: what it
      leaves is the script after the replies it was given. */
  lemma {:induction false} LoopConsumesInOrder(h: seq<Message>, script: seq<ModelReply>, tools: seq<LlmTool>,
      maxTokens: Option<nat>, decode: string -> Result<Arguments>, callTool: (string, Arguments) -> ToolReply)
    ensures var r := Loop(h, script, tools, maxTokens, decode, callTool);
      |r.requests| <= |script| && r.script == script[|r.requests|..]
    decreases |script|
  {
    if |script| > 0 {
      var s := Step(h, script[0], decode, callTool);
      if s.next.CallModelAgain? {
        var rest := Loop(s.history, script[1..], tools, maxTokens, decode, callTool);
        LoopConsumesInOrder(s.history, script[1..], tools, maxTokens, decode, callTool);
        var n := |rest.requests|;
        assert n <= |script| - 1;
        assert script[1..][n..] == script[1 + n..];
        assert |([ModelRequest(h, tools, maxTokens)] + rest.requests)| == 1 + n;
      }
    }
  }

  /** A step adds one tool turn when it continues the loop and none
      otherwise, and never a user turn. */
  lemma StepCounts(h: seq<Message>, reply: ModelReply, decode: string -> Result<Arguments>,
                   callTool: (string, Arguments) -> ToolReply)
    ensures var r := Step(h, reply, decode, callTool);
      && RoleCount(r.history, Tool) == RoleCount(h, Tool) + (if r.next.CallModelAgain? then 1 else 0)
      && RoleCount(r.history, Human) == RoleCount(h, Human)
  {
    var r := Step(h, reply, decode, callTool);
    var suffix: seq<Message>;
    if reply.ModelError? || |reply.choices| == 0 {
      suffix := [];
    } else if |reply.choices[0].toolCalls| == 0 {
      suffix := [TextMessage(AI, reply.choices[0].content)];
    } else {
      var call := reply.choices[0].toolCalls[0];
      match decode(call.functionCall.arguments)
      case Failure(_) =>
        suffix := [IntentMessage(call)];
      case Success(args) =>
        match callTool(call.functionCall.name, args)
        case ToolErr(_) =>
          suffix := [IntentMessage(call)];
        case ToolOk(content) =>
          suffix := [IntentMessage(call), ToolResponseMessage(call, TextOf(content))];
          assert RoleCount(suffix, Tool) == 1 by {
            assert suffix[..1] == [IntentMessage(call)];
          }
    }
    assert r.history == h + suffix;
    RoleCountAppend(h, suffix, Tool);
    RoleCountAppend(h, suffix, Human);
  }

  /** A turn keeps the correlation invariant: every tool turn it appends
      directly follows the intent it answers. */
  lemma {:induction false} LoopKeepsCorrelation(h: seq<Message>, script: seq<ModelReply>, tools: seq<LlmTool>,
      maxTokens: Option<nat>, decode: string -> Result<Arguments>, callTool: (string, Arguments) -> ToolReply)
    requires Correlated(h)
    ensures Correlated(Loop(h, script, tools, maxTokens, decode, callTool).history)
    decreases |script|
  {
    if |script| > 0 {
      var s := Step(h, script[0], decode, callTool);
      StepKeepsCorrelation(h, script[0], decode, callTool);
      if s.next.CallModelAgain? {
        LoopKeepsCorrelation(s.history, script[1..], tools, maxTokens, decode, callTool);
      }
    }
  }

  /** A turn appends no user turn; it makes exactly one tool invocation
      per tool turn it appends, plus the one that failed if it ended on a
      tool error; and it calls the model once more than it invokes tools
      unless it ended on a tool error or ran out of script. */
  lemma {:induction false} LoopCounts(h: seq<Message>, script: seq<ModelReply>, tools: seq<LlmTool>,
      maxTokens: Option<nat>, decode: string -> Result<Arguments>, callTool: (string, Arguments) -> ToolReply)
    ensures var r := Loop(h, script, tools, maxTokens, decode, callTool);
      && RoleCount(r.history, Human) == RoleCount(h, Human)
      && |r.invocations| == RoleCount(r.history, Tool) - RoleCount(h, Tool) + (if r.end.ToolFailed? then 1 else 0)
      && |r.requests| == |r.invocations| + (if r.end.ToolFailed? || r.end.ScriptExhausted? then 0 else 1)
    decreases |script|
  {
    if |script| > 0 {
      var s := Step(h, script[0], decode, callTool);
      StepCounts(h, script[0], decode, callTool);
      if s.next.CallModelAgain? {
        LoopCounts(s.history, script[1..], tools, maxTokens, decode, callTool);
      }
    }
  }

  /** Every request in `requests` showed the model a history between `lo`
      and `hi` (both as prefixes) and offered `tools` with `maxTokens`. */
  predicate RequestsWithin(requests: seq<ModelRequest>, lo: seq<Message>, hi: seq<Message>,
                           tools: seq<LlmTool>, maxTokens: Option<nat>)
  {
    forall i :: 0 <= i < |requests| ==>
      && lo <= requests[i].context <= hi
      && requests[i].tools == tools && requests[i].maxTokens == maxTokens
  }

  lemma RequestsWithinConcat(a: seq<ModelRequest>, b: seq<ModelRequest>, lo: seq<Message>, mid: seq<Message>,
                             hi: seq<Message>, tools: seq<LlmTool>, maxTokens: Option<nat>)
    requires RequestsWithin(a, lo, mid, tools, maxTokens) && RequestsWithin(b, mid, hi, tools, maxTokens)
    requires lo <= mid <= hi
    ensures RequestsWithin(a + b, lo, hi, tools, maxTokens)
  {
    forall i | 0 <= i < |a + b|
      ensures lo <= (a + b)[i].context <= hi
    {
      if i < |a| {
        assert (a + b)[i] == a[i];
      } else {
        assert (a + b)[i] == b[i - |a|];
      }
    }
  }

  /** Every request of a turn shows the model the whole history as it
      stood: an extension of the turn's starting history and a prefix of
      its final one, with the same tools and token limit. The first request
      shows exactly the starting history. */
  lemma {:induction false} LoopRequestsSeeHistory(h: seq<Message>, script: seq<ModelReply>, tools: seq<LlmTool>,
      maxTokens: Option<nat>, decode: string -> Result<Arguments>, callTool: (string, Arguments) -> ToolReply)
    ensures var r := Loop(h, script, tools, maxTokens, decode, callTool);
      RequestsWithin(r.requests, h, r.history, tools, maxTokens)
    ensures var r := Loop(h, script, tools, maxTokens, decode, callTool);
      |r.requests| > 0 ==> r.requests[0].context == h
    decreases |script|
  {
    var r := Loop(h, script, tools, maxTokens, decode, callTool);
    if |script| > 0 {
      var request := ModelRequest(h, tools, maxTokens);
      var s := Step(h, script[0], decode, callTool);
      if s.next.CallModelAgain? {
        var rest := Loop(s.history, script[1..], tools, maxTokens, decode, callTool);
        LoopRequestsSeeHistory(s.history, script[1..], tools, maxTokens, decode, callTool);
        assert r.requests == [request] + rest.requests;
        RequestsWithinConcat([request], rest.requests, h, s.history, r.history, tools, maxTokens);
      } else {
        assert r.requests == [request];
      }
    }
  }

  /** A turn appends an answer exactly when it ends answered, and then only
      as its last turn. */
  lemma {:induction false} LoopAnswersLast(h: seq<Message>, script: seq<ModelReply>, tools: seq<LlmTool>,
      maxTokens: Option<nat>, decode: string -> Result<Arguments>, callTool: (string, Arguments) -> ToolReply)
    ensures var r := Loop(h, script, tools, maxTokens, decode, callTool);
      forall i :: |h| <= i < |r.history| ==>
        (IsAnswer(r.history[i]) <==> r.end.Answered? && i == |r.history| - 1)
    ensures var r := Loop(h, script, tools, maxTokens, decode, callTool);
      r.end.Answered? ==> |r.history| > |h|
    decreases |script|
  {
    if |script| > 0 {
      var s := Step(h, script[0], decode, callTool);
      LoopUnfolds(h, script, tools, maxTokens, decode, callTool);
      if s.next.CallModelAgain? {
        var rest := Loop(s.history, script[1..], tools, maxTokens, decode, callTool);
        LoopAnswersLast(s.history, script[1..], tools, maxTokens, decode, callTool);
        StepAppendsNoAnswer(h, s.history, rest.history);
      }
    }
  }

  /** The history and ending of a turn after its first step: the step's
      own when the step ends the turn, otherwise those of the rest of the
      turn. */
  lemma LoopUnfolds(h: seq<Message>, script: seq<ModelReply>, tools: seq<LlmTool>,
      maxTokens: Option<nat>, decode: string -> Result<Arguments>, callTool: (string, Arguments) -> ToolReply)
    requires |script| > 0
    ensures var r := Loop(h, script, tools, maxTokens, decode, callTool);
      var s := Step(h, script[0], decode, callTool);
      if s.next.CallModelAgain? then
        var rest := Loop(s.history, script[1..], tools, maxTokens, decode, callTool);
        r.history == rest.history && r.end == rest.end
      else r.history == s.history && r.end == s.next.end
  {
  }

  lemma StepAppendsNoAnswer(h: seq<Message>, mid: seq<Message>, final: seq<Message>)
    requires |mid| == |h| + 2 && IsIntent(mid[|h|]) && IsToolResponse(mid[|h| + 1])
    requires mid <= final
    ensures forall i :: |h| <= i < |mid| ==> !IsAnswer(final[i])
  {
  }

  /** Only the first proposed tool call of the first choice is acted on:
      the other choices, the other tool calls and the choice's text make no
      difference. */
  lemma OnlyFirstToolCallActedOn(h: seq<Message>, call: ToolCall, text: string, moreCalls: seq<ToolCall>,
      moreChoices: seq<Choice>, decode: string -> Result<Arguments>, callTool: (string, Arguments) -> ToolReply)
    ensures Step(h, Generated([Choice(text, [call] + moreCalls)] + moreChoices), decode, callTool)
         == Step(h, Generated([Choice("", [call])]), decode, callTool)
  {
  }

  /** A tool call that decodes and succeeds appends the intent and then
      the tool turn carrying the intent's id and name and the result's
      text. */
  lemma ToolRoundTrip(h: seq<Message>, call: ToolCall, text: string, args: Arguments, content: seq<Content>,
      decode: string -> Result<Arguments>, callTool: (string, Arguments) -> ToolReply)
    requires decode(call.functionCall.arguments) == Success(args)
    requires callTool(call.functionCall.name, args) == ToolOk(content)
    ensures var r := Step(h, Generated([Choice(text, [call])]), decode, callTool);
      && r.history == h + [IntentMessage(call), ToolResponseMessage(call, TextOf(content))]
      && Answers(r.history[|h| + 1], r.history[|h|])
      && r.invocation == Some(ToolRequest(call.functionCall.name, args))
      && r.next.CallModelAgain?
  {
  }
}

=== FILE: weather_server.dfy ===
/** The weather tool server: a case-insensitive lookup in a fixed table of
    three cities, the `get_weather` tool handler around it, and the
    `compare_weather` prompt, whose text names the two locations quoted
    with `%q`. */
module WeatherServer {
  import opened GoValues
  import opened Protocol
  import opened GoQuote

  // ---------------------------------------------------------------------
  // The mock table
  // ---------------------------------------------------------------------

  /** One record of the mock reply. Temperatures and wind speed are kept as
      their `%.1f` renderings. */
  datatype WeatherRecord = WeatherRecord(
    name: string, descriptions: seq<string>,
    temp: string, feelsLike: string, humidity: int, windSpeed: string)

  /** The decoded mock reply, in its order. */
  const MockTable: seq<WeatherRecord> := [
    WeatherRecord("Bengaluru", ["scattered clouds"], "28.5", "30.2", 55, "5.4"),
    WeatherRecord("London", ["light rain"], "12.4", "10.8", 82, "3.1"),
    WeatherRecord("New York", ["clear sky"], "-2.0", "-7.5", 40, "8.2")
  ]

  /** The tool's result, every field a rendered string. */
  datatype WeatherResult = WeatherResult(
    location: string, weather: string, temperatureCelsius: string,
    feelsLikeCelsius: string, humidity: string, windSpeedMps: string)

  /** The first record whose name equals `location` under simple case
      folding. */
  function Lookup(table: seq<WeatherRecord>, location: string): (r: Option<nat>)
    ensures r.Some? ==>
      (&& r.value < |table| && EqualFold(table[r.value].name, location)
       && forall j :: 0 <= j < r.value ==> !EqualFold(table[j].name, location))
    ensures r.None? ==> forall j :: 0 <= j < |table| ==> !EqualFold(table[j].name, location)
  {
    if |table| == 0 then None
    else if EqualFold(table[0].name, location) then Some(0)
    else match Lookup(table[1..], location)
      case None => None
      case Some(k) => Some(k + 1)
  }

  /** The result built from a record: the first description, the
      temperatures with a degree sign, the humidity as `%d%%` and the wind
      speed in metres per second. Reading the first description of a
      record without one is an index panic. */
  function Render(w: WeatherRecord): (r: Outcome<WeatherResult>)
    ensures r.Panic? <==> |w.descriptions| == 0
    ensures !r.Err?
  {
    if |w.descriptions| == 0 then Panic("index out of range [0] with length 0")
    else
      Ok(WeatherResult(
        w.name, w.descriptions[0],
        w.temp + "\U{00B0}C", w.feelsLike + "\U{00B0}C",
        FormatInt(w.humidity) + "%",
        w.windSpeed + " m/s"))
  }

  /** `getWeatherMock`: the key is not used. An unknown location leaves the
      record pointer nil and the field read dereferences it, so the outcome
      is a panic, never an error value. */
  function GetWeatherMock(location: string, key: string): (r: Outcome<WeatherResult>)
    ensures !r.Err?
    ensures r.Panic? <==> forall k :: 0 <= k < |MockTable| ==> !EqualFold(MockTable[k].name, location)
    ensures r.Ok? ==> exists k :: 0 <= k < |MockTable| && EqualFold(MockTable[k].name, location) && Render(MockTable[k]) == r
  {
    match Lookup(MockTable, location)
    case None => Panic("invalid memory address or nil pointer dereference")
    case Some(k) => Render(MockTable[k])
  }

  /** `GetWeather` delegates to the mock, so the key it is given makes no
      difference: the outcome is the mock's for any key. */
  function GetWeather(location: string, key: string): (r: Outcome<WeatherResult>)
    ensures !r.Err?
    ensures r.Panic? <==> forall k :: 0 <= k < |MockTable| ==> !EqualFold(MockTable[k].name, location)
    ensures forall other :: GetWeatherMock(location, other) == r
  {
    GetWeatherMock(location, key)
  }

  // ---------------------------------------------------------------------
  // The get_weather tool
  // ---------------------------------------------------------------------

  datatype WeatherInput = WeatherInput(location: string, units: string)

  datatype WeatherOutput = WeatherOutput(location: string, result: Option<WeatherResult>)

  /** The fixed key the handler passes. */
  const HandlerKey: string := "xyzaza"

  /** `GetWeatherToolHandler`: an error becomes the error return with no
      output; otherwise the output pairs the caller's location with the
      result. The protocol-level result is always nil. */
  function GetWeatherToolHandler(input: WeatherInput): (r: Outcome<WeatherOutput>)
    ensures !r.Err?
    ensures r.Ok? ==> r.value.location == input.location && r.value.result.Some?
    ensures r.Panic? <==> forall k :: 0 <= k < |MockTable| ==> !EqualFold(MockTable[k].name, input.location)
  {
    match GetWeather(input.location, HandlerKey)
    case Panic(p) => Panic(p)
    case Err(e) => Err(e)
    case Ok(wr) => Ok(WeatherOutput(input.location, Some(wr)))
  }

  /** No two table names fold to each other, so the first match is the only
      one. */
  lemma TableNamesDistinct()
    ensures forall i, j :: 0 <= i < j < |MockTable| ==> !EqualFold(MockTable[i].name, MockTable[j].name)
  {
    assert FoldRune(MockTable[0].name[0]) == 'b';
    assert FoldRune(MockTable[1].name[0]) == 'l';
  }

  /** The lookup is case-insensitive: two spellings that fold to each other
      get the same outcome, and a result names the matching record in the
      table's own spelling, not the caller's. */
  lemma LookupRespectsFolding(x: string, y: string, key: string)
    requires EqualFold(x, y)
    ensures GetWeatherMock(x, key) == GetWeatherMock(y, key)
  {
    forall j | 0 <= j < |MockTable|
      ensures EqualFold(MockTable[j].name, x) <==> EqualFold(MockTable[j].name, y)
    {
      EqualFoldIsEquivalence(MockTable[j].name, x, y);
      EqualFoldIsEquivalence(MockTable[j].name, y, x);
      EqualFoldIsEquivalence(x, y, y);
    }
    LookupAgrees(MockTable, x, y);
  }

  lemma {:induction false} LookupAgrees(table: seq<WeatherRecord>, x: string, y: string)
    requires forall j :: 0 <= j < |table| ==> (EqualFold(table[j].name, x) <==> EqualFold(table[j].name, y))
    ensures Lookup(table, x) == Lookup(table, y)
    decreases |table|
  {
    if |table| > 0 && !EqualFold(table[0].name, x) {
      LookupAgrees(table[1..], x, y);
    }
  }

  lemma LocationIsCanonical(location: string, key: string)
    requires GetWeatherMock(location, key).Ok?
    ensures var r := GetWeatherMock(location, key).value;
      exists k :: 0 <= k < |MockTable| && r.location == MockTable[k].name && EqualFold(r.location, location)
  {
    var k := Lookup(MockTable, location).value;
    assert GetWeatherMock(location, key).value.location == MockTable[k].name;
  }

  /** Humidity is the record's integer in decimal followed by a percent
      sign, and reads back as that integer. */
  lemma HumidityReadsBack(w: WeatherRecord)
    requires Render(w).Ok?
    ensures var hs := Render(w).value.humidity;
      |hs| > 1 && hs[|hs| - 1] == '%' && ParseInt(hs[..|hs| - 1]) == Some(w.humidity)
  {
    var hs := Render(w).value.humidity;
    assert hs[..|hs| - 1] == FormatInt(w.humidity);
    FormatIntRoundTrip(w.humidity);
  }

  /** The tool handler answers with the caller's spelling next to the
      table's: asking for "london" yields output location "london" around a
      result for "London". */
  lemma HandlerEchoesCallerSpelling()
    ensures var r := GetWeatherToolHandler(WeatherInput("london", "metric"));
      && r.Ok? && r.value.location == "london"
      && r.value.result == Some(WeatherResult("London", "light rain", "12.4\U{00B0}C", "10.8\U{00B0}C", "82%", "3.1 m/s"))
  {
    assert !EqualFold(MockTable[0].name, "london");
    assert EqualFold(MockTable[1].name, "london");
    assert Lookup(MockTable, "london") == Some(1);
    assert FormatInt(82) == "82" by {
      assert NatToDecimal(8) == "8";
    }
    var london := MockTable[1];
    assert GetWeatherMock("london", HandlerKey) == Render(london);
    assert london.temp + "\U{00B0}C" == "12.4\U{00B0}C";
    assert london.feelsLike + "\U{00B0}C" == "10.8\U{00B0}C";
    assert FormatInt(london.humidity) + "%" == "82%";
    assert london.windSpeed + " m/s" == "3.1 m/s";
  }

  /** A city missing from the table panics in the handler. */
  lemma UnknownCityPanics(key: string)
    ensures GetWeatherMock("Paris", key).Panic?
  {
    assert !EqualFold(MockTable[0].name, "Paris");
    assert !EqualFold(MockTable[1].name, "Paris");
    assert !EqualFold(MockTable[2].name, "Paris");
  }

  // ---------------------------------------------------------------------
  // The compare_weather prompt
  // ---------------------------------------------------------------------

  /** The fixed text of the comparison prompt, cut where the four quoted
      locations go (A, B, A, B). */
  const Intro: string :=
    "You are acting as a helpful weather analyst. \nYour goal is to provide a clear " +
    "and easy-to-read comparison of the weather in two different locations for a " +
    "user.\n\nThe user wants to compare the weather between "
  const Between: string := " and "
  const Steps: string :=
    ".\n\nTo accomplish this, follow these steps:\n1. First, gather the necessary " +
    "weather data for both "
  const Closing: string :=
    ".\n2. Once you have the weather data for both locations, DO NOT simply list the " +
    "raw results.\n3. Instead, synthesize the information into a concise summary. Your " +
    "final response should highlight the key differences, focusing on temperature, " +
    "the general conditions (e.g., 'sunny' vs 'rainy'), and wind speed.\n4. Present " +
    "the comparison in a structured format, like a markdown table or a clear bulleted " +
    "list, to make it easy for the user to understand at a glance."

  /** A text with two values to fill in, quoted, in the order A, B, A, B. */
  datatype Template = Template(intro: string, between: string, steps: string, closing: string)

  const CompareTemplate: Template := Template(Intro, Between, Steps, Closing)

  function Fill(t: Template, a: string, b: string): string
  {
    t.intro + (Quote(a) + (t.between + (Quote(b) + (t.steps + (Quote(a) + (t.between + (Quote(b) + t.closing)))))))
  }

  /** `CompareWeather`: the text names A then B, twice, and nothing else
      varies, so both locations read back out of it, in order. */
  function CompareWeather(a: string, b: string): (text: string)
    ensures ExtractLocations(text) == Some((a, b))
  {
    FillReadsBack(CompareTemplate, a, b);
    Fill(CompareTemplate, a, b)
  }

  /** Reads one quoted value that follows the literal `lit`. */
  function ReadQuotedAfter(t: string, lit: string): Option<(string, string)>
  {
    if HasPrefix(t, lit) then Unquote(t[|lit|..]) else None
  }

  /** Reads the two values back out of a filled template, checking every
      fixed part and that the second mention of each value repeats the
      first. */
  function Extract(t: Template, text: string): Option<(string, string)>
  {
    match ReadQuotedAfter(text, t.intro)
    case None => None
    case Some((a, r1)) =>
      match ReadQuotedAfter(r1, t.between)
      case None => None
      case Some((b, r2)) =>
        match ReadQuotedAfter(r2, t.steps)
        case None => None
        case Some((a2, r3)) =>
          match ReadQuotedAfter(r3, t.between)
          case None => None
          case Some((b2, r4)) =>
            if a2 == a && b2 == b && r4 == t.closing then Some((a, b)) else None
  }

  function ExtractLocations(text: string): Option<(string, string)>
  {
    Extract(CompareTemplate, text)
  }

  lemma ReadQuotedAfterRoundTrip(lit: string, s: string, rest: string)
    ensures ReadQuotedAfter(lit + (Quote(s) + rest), lit) == Some((s, rest))
  {
    var t := lit + (Quote(s) + rest);
    assert t[..|lit|] == lit;
    assert t[|lit|..] == Quote(s) + rest;
    QuoteRoundTrip(s, rest);
  }

  /** Whatever the fixed parts, both values read back out of the filled
      text. */
  lemma FillReadsBack(t: Template, a: string, b: string)
    ensures Extract(t, Fill(t, a, b)) == Some((a, b))
  {
    var qa, qb := Quote(a), Quote(b);
    var r4 := t.closing;
    var r3 := t.between + (qb + r4);
    var r2 := t.steps + (qa + r3);
    var r1 := t.between + (qb + r2);
    ReadQuotedAfterRoundTrip(t.intro, a, r1);
    ReadQuotedAfterRoundTrip(t.between, b, r2);
    ReadQuotedAfterRoundTrip(t.steps, a, r3);
    ReadQuotedAfterRoundTrip(t.between, b, r4);
  }

  /** Different pairs of values give different filled texts, whatever the
      fixed parts; the comparison prompt is one such text. */
  lemma FillInjective(t: Template, a: string, b: string, c: string, d: string)
    requires Fill(t, a, b) == Fill(t, c, d)
    ensures a == c && b == d
  {
    FillReadsBack(t, a, b);
    FillReadsBack(t, c, d);
  }

  /** A Go map read: the zero value for a missing key. */
  function MapGet(m: map<string, string>, key: string): (v: string)
    ensures key !in m ==> v == ""
  {
    if key in m then m[key] else ""
  }

  const PromptDescription: string := "Weather comparision prompt"

  /** `CompareWeatherPrompt`: both locations are required to be non-empty;
      the result is one user message holding the comparison text. */
  function CompareWeatherPrompt(arguments: map<string, string>): (r: Outcome<GetPromptResult>)
    ensures !r.Panic?
    ensures r.Err? <==> MapGet(arguments, "location_a") == "" || MapGet(arguments, "location_b") == ""
    ensures r.Err? ==>
      && !r.error.continuable
      && r.error.text == "any one or both the locations are empty: 1. " + MapGet(arguments, "location_a")
                         + ",\n 2. " + MapGet(arguments, "location_b")
    ensures r.Ok? ==>
      && r.value.description == PromptDescription
      && |r.value.messages| == 1 && r.value.messages[0].role == "user"
      && r.value.messages[0].content.TextContent?
      && ExtractLocations(r.value.messages[0].content.text)
         == Some((arguments["location_a"], arguments["location_b"]))
  {
    var a := MapGet(arguments, "location_a");
    var b := MapGet(arguments, "location_b");
    if a == "" || b == "" then
      Err(PlainError("any one or both the locations are empty: 1. " + a + ",\n 2. " + b))
    else
      Ok(GetPromptResult(PromptDescription, [PromptMessage("user", TextContent(CompareWeather(a, b)))]))
  }

  /** The prompt as the server registers it: two required arguments. */
  const ComparePrompt: Prompt :=
    Prompt("compare_weather",
      "Generates a clear, comparative summary of the weather between two specified locations.",
      [PromptArgument("location_a", "The first city for comparison (e.g., 'London')", true),
       PromptArgument("location_b", "The second city for comparison (e.g., 'Paris')", true)])
}
